=== FILE: README.md ===
# Testagon core, modelled in Dafny

Testagon generates pytest unit tests for a Python project with the help of a language
model. Around the calls to the model it has six pieces of deterministic logic. This
project models them and proves what they promise:

- **Invariant annotation** (`generate_invariants.py`). Each function receives a
  numbered `-- INVARIANTS --` block in its docstring. The `updater` either replaces an
  earlier block or appends one. Response entries are applied in order to one threaded
  content, and that content is written once at the end (module `Invariants`).
- **Docstring editor** (`DocstringEditor` / `update_docstring` in `testagon/util.py`).
  It works on an abstract module tree of function definitions, compound statements,
  string-literal statements and opaque statements. Every definition with the target
  name gets a new leading docstring. No other statement changes (module `Docstrings`).
  As written, `update_docstring` raises on every call (see "## Findings"); the model,
  and the invariant annotation built on it, use the corrected function.
- **Project scan and outline** (`get_project_structure` in `testagon/util.py`, and
  `get_file_structure` / `output_project_structure` in `util.py`). Both work on an
  abstract directory tree whose listings are ordered sequences (module `FsTree`).
- **Syntax repair** (`validate_syntax`, `iterate_syntax` and `generate_initial` in
  `unit_tests.py`; `validate_syntax` in `testagon/util.py`). This is a bounded loop. It
  is parameterised by the parser and by the repair service (module `SyntaxRepair`).
- **Critic** (`critic.py` and its packaged copy `testagon/critic.py`). It reads the
  pytest JSON report, pairs each failure with a suggestion, and decides whether
  feedback is requested (module `Critic`).
- **Test generation** (`generate_tests` in `testagon/cli.py`). It chooses which scanned
  paths get a test file and where that file goes. Its fork/join of jobs is modelled as
  a log of what the main thread does (module `Orchestrator`).

Two modules support them. `Strings` holds Python's `str` operations: `in`, `find`,
`split`, `join`, `strip`, `str(int)`, `startswith` and `endswith`. `Paths` holds
`posixpath`'s `join`, `dirname`, `basename` and `normpath`.

External effects are parameters. The parser is `parse: string -> Option<string>`, which
gives `None` when the text parses and `Some(traceback)` when it does not. The repair
service is `repair: (string, string) -> string`. The classifier is
`classify: string -> (string, ProblemSource)`. The outcome of a pytest run is an input.

Where a natural reading of the tool differs from its code, the model follows the code:

- A test file keeps the source's basename. No `test_` prefix is added.
- When pytest could not be run at all, the critic still reports "All tests passed".
- `iterate_syntax` returns only the text, not whether it parses.

## Model

| member | source | states |
|---|---|---|
| Strings.BeforeFirst | generate_invariants.py:101 | `s.split(sep)[0]` is a prefix of `s` that does not contain `sep`; no occurrence of `sep` in `s` starts inside it, even one overlapping its end, and `sep` follows it when `sep` occurs at all, so it ends at the first occurrence; otherwise it is all of `s` |
| Strings.Strip | generate_invariants.py:101 | `strip()` returns a slice of its input that has no leading or trailing whitespace, and every character dropped on either side is whitespace |
| Strings.SplitJoin | generate_invariants.py:94 | joining lines that contain no separator and splitting again gives the lines back |
| Invariants.FormatInvariants | generate_invariants.py:94-95 | the block starts with `-- INVARIANTS --` and a newline; an empty list gives exactly that |
| Invariants.FormatInvariantsLines | generate_invariants.py:94-95 | split at newlines, the block is the header line and then one line `k. inv` per invariant, numbered from 1 in input order (one empty line when there are none) |
| Invariants.FormatInvariantsRoundTrip | generate_invariants.py:94-95 | the numbered block reads back as exactly the invariants it was made from |
| Invariants.Updater | generate_invariants.py:98-104 | every result contains the header and ends with the new block; the empty docstring gives `"\n\n"` followed by the block |
| Invariants.UpdaterKeeps | generate_invariants.py:99-104 | in both branches, the result is the old text before its first header (or all of it), stripped, then `"\n\n"`, then the block; the kept text holds no header |
| Invariants.UpdaterDropsFromFirstHeader | generate_invariants.py:99-101 | when the old docstring has a header at index i, nothing from i onwards survives: the result is `strip(existing[..i]) + "\n\n" + block` |
| Invariants.UpdaterSupersedes | generate_invariants.py:98-104 | updating with new invariants a docstring that already holds a block gives the same result as updating the original docstring |
| Invariants.UpdaterIdempotent | generate_invariants.py:98-104 | `updater(updater(d)) == updater(d)` for every docstring d |
| Invariants.UpdaterNotBlank | generate_invariants.py:98-104 | the updater's result never cleans to an empty docstring, so a block it wrote is found again as a truthy docstring |
| Invariants.InsertInvariantsSequential | generate_invariants.py:89-107 | the response entries are applied in order to one threaded content: folding over `a + b` is folding over `b` after `a` |
| Invariants.RegenerationReplaces | generate_invariants.py:89-107 | two entries for the same function leave only the second entry's block |
| Invariants.AnnotateIdempotent | generate_invariants.py:98-107 | applying the same entry twice is applying it once |
| Invariants.UnknownDeclarationSkipped | generate_invariants.py:90-107 | an entry whose declaration names no definition edits nothing |
| Invariants.DeclarationLineEditsNothing | generate_invariants.py:90-107 | a declaration that is not a bare identifier (a whole `def` line, say) is compared verbatim with the names and edits nothing |
| Invariants.AnnotateDocs | generate_invariants.py:98-107 | after one entry, every definition with that name has a docstring ending with the entry's block, and every other definition keeps its docstring |
| Invariants.Annotate | generate_invariants.py:97-107 | one response entry is one `update_docstring` call with that entry's updater; its effect is stated by Invariants.AnnotateDocs, Invariants.AnnotateIdempotent and Invariants.UnknownDeclarationSkipped |
| Invariants.InsertInvariants | generate_invariants.py:89-107 | the entries are applied in order to one threaded content; stated by Invariants.InsertInvariantsSequential and Invariants.RegenerationReplaces |
| Invariants.GenerateInvariants | generate_invariants.py:89-111 | a response without `functions`, or with an empty list, leaves the content as it is; otherwise the fold over its entries (Invariants.InsertInvariants) is what is written back, once |
| Docstrings.UpdateDocstring | testagon/util.py:141-147 | with the text read as `new_tree.code`, the edit adds, removes and renames no definition, and every definition's docstring is the one `ExpectedDocs` prescribes |
| Docstrings.UpdateDocstringAsWritten | testagon/util.py:147 | as written, the call `new_tree.code()` applies the string property `code`, so every call ends in `TypeError` and never returns an edited module |
| Docstrings.UpdateDocstringAsWrittenRaises | testagon/util.py:143-147 | adding a docstring to `f` in `def f():` with the indented body `return 1` raises as written, while the corrected function puts `updater("")` in front of the body |
| Docstrings.Docstring | testagon/util.py:123 | the docstring is the value of a leading string-literal statement, and absent otherwise; Docstrings.DocstringOfEditedBody shows editing nested definitions never changes it |
| Docstrings.DocstringTruthy | testagon/util.py:123 | the `if original_node.get_docstring():` test: false for an absent docstring and for one that `inspect.cleandoc` empties; Docstrings.BlankDocstrings shows both outcomes |
| Docstrings.EditStmt | testagon/util.py:121-139 | `leave_FunctionDef` applied bottom-up to one statement; its effect is stated by Docstrings.EditKeepsNames, Docstrings.EditDocs and Docstrings.EditTouchesOnlyTargetDocs |
| Docstrings.EditBody | testagon/util.py:121-139 | the transformer visits every statement of a body in order and keeps their number; stated further by Docstrings.EditKeepsNames and Docstrings.EditDocs |
| Docstrings.MissLeavesModuleUnchanged | testagon/util.py:121-147 | a module with no definition named `function_name` comes back unchanged |
| Docstrings.EditKeepsNames | testagon/util.py:121-139 | the edit adds, removes and renames no definition; the names, nested ones included, stay the same and in the same order |
| Docstrings.EditDocs | testagon/util.py:121-137 | every definition with the target name, at any depth (nested functions, methods), gets `updater` applied to its literal's raw value when its docstring is truthy after `inspect.cleandoc`, and `updater("")` otherwise; every other definition keeps its docstring |
| Docstrings.EditTouchesOnlyTargetDocs | testagon/util.py:123-137 | for an updater whose result never cleans to an empty docstring, everything except the targets' leading docstrings is unchanged at every depth: the rest of the body is kept in order after a replacement, and the whole old body is kept after a prepended docstring |
| Docstrings.EditSupersedes | testagon/util.py:121-147 | editing with `u1` and then with `u2`, where `u2` absorbs what `u1` wrote, equals editing with `u2` alone |
| Docstrings.EditIdempotent | testagon/util.py:142-147 | for an idempotent updater whose result never cleans to an empty docstring, editing twice is editing once |
| Docstrings.BlankDocstrings | testagon/util.py:123-137 | a docstring of blanks and tabs reads as absent, so the new docstring is put in front of it and the old literal stays; blanks on a second line survive cleaning, so that docstring is replaced |
| FsTree.VisibleChains | testagon/util.py:15-21 | every file reached has a non-empty chain of names, and no name on the chain is hidden, so hidden directories are never entered |
| FsTree.ScanChains | testagon/util.py:11-22 | the scan lists exactly the visible files, in preorder, each as the start path joined with its chain of names |
| FsTree.VisibleChainsExact | testagon/util.py:15-21 | a chain of names is followed by the scan exactly when it leads through non-hidden directories to a non-hidden regular file |
| FsTree.ScanListsVisibleFiles | testagon/util.py:11-22 | a path is listed exactly when it is the start path joined with the names leading to a visible regular file: all such files are listed, and nothing else |
| FsTree.ScanAppend | testagon/util.py:15-21 | a listing made of two parts is scanned part by part, in listing order |
| FsTree.ScanSkipsHidden | testagon/util.py:17 | an entry whose name starts with `.` contributes nothing, whatever it contains |
| FsTree.ScanFromDot | testagon/util.py:11-21 | scanning `.` reports each visible file as `./` followed by its ordinary names joined by `/` |
| FsTree.Scan | testagon/util.py:11-22 | `get_project_structure`; what it lists is stated by FsTree.ScanListsVisibleFiles (exactly the visible files) and FsTree.ScanChains (in preorder) |
| FsTree.FileStructure | util.py:3-18 | when the nested structure exists, it has one node per listed entry |
| FsTree.FileStructureFaithful | util.py:3-18 | the structure exists exactly when the tree holds only files and directories, and then it keeps every entry, hidden ones included, with its name, kind and order |
| FsTree.Render | util.py:20-26 | the outline is empty exactly when there are no nodes |
| FsTree.RenderIsOutline | util.py:20-26 | the rendering is the preorder list of lines `" "*spaces + "- " + name`, each ended by a newline, with children two blanks deeper than their directory |
| FsTree.RenderLines | util.py:20-26 | for names without newlines, splitting the rendering at newlines gives one line per node of the tree and a final empty piece |
| FsTree.RenderAppend | util.py:22-25 | rendering distributes over concatenation of node lists |
| Paths.TestPathMirrors | testagon/cli.py:35-37 | for a scanned path `./a/.../f`, the test path is `tests/a/.../f`: the normalised directory below `tests` plus the unchanged basename |
| Paths.TestPathsDistinct | testagon/cli.py:35-37 | distinct scanned source paths get distinct test paths |
| Paths.MirrorDir | testagon/cli.py:35-37 | for a scanned path below an ordinary root, the directory of the mirrored path is the normalised join of the root with the path's directory |
| Paths.TestDirMirrors | testagon/cli.py:35-37 | for a scanned path, the test file lies in the normalised `tests/<dirname(path)>` |
| Paths.TestPath | testagon/cli.py:35-37 | the test path of a source; stated by Paths.TestPathMirrors, Paths.TestPathsDistinct and Paths.TestDirMirrors |
| SyntaxRepair.Validate | unit_tests.py:9-17 | the result is `(True, None)` when parsing succeeds and `(False, traceback)` otherwise |
| SyntaxRepair.IterateSyntax | unit_tests.py:20-78 | at most `max_iter` repair requests; with `max_iter = 0` the source comes back with none; otherwise the first request is `(source, first_err)`, each later request is the previous answer with its error, and the answer is the last repair; it parses unless every request was used |
| SyntaxRepair.IterateOutcome | unit_tests.py:27-78 | with at least one request allowed, the answer is one of the repair service's answers, and a first repair that parses is returned at once |
| SyntaxRepair.IterateInvalidMeansExhausted | unit_tests.py:27-78 | if the answer does not parse, no smaller budget would have ended with a parsing text either |
| SyntaxRepair.GenerateInitial | unit_tests.py:221-228 | a body that parses is written unchanged with no request; any other body is written as the loop leaves it, after 1 to 10 requests, and it fails to parse only when all 10 were used |
| SyntaxRepair.ValidateSyntax | testagon/util.py:36-112 | with the intended validity check: a source that parses is returned at once with no request; otherwise the bounded loop runs from its traceback and stops at the first answer that parses |
| SyntaxRepair.ValidateSyntaxAsWritten | testagon/util.py:101 | as written, a source needing repair ends in a `TypeError` after one request whenever `max_iter >= 1`, and any returned text is the unchanged source |
| SyntaxRepair.ValidateSyntaxAsWrittenRaises | testagon/util.py:101 | for the source `pass(` and a service that answers `pass`, the code as written raises, while the intended loop returns `pass`, which parses |
| Critic.FailureMessage | critic.py:42 | the failure message is `call.longrepr` when both are present, and `"No failure details"` otherwise |
| Critic.SuggestionText | critic.py:53-59 | the suggestion starts with the test name in backticks and ends with the failure message and the fixed request text, with name and message at fixed positions |
| Critic.SuggestionTextInjective | critic.py:53-59 | different (name, message) pairs give different suggestions when names contain no backtick |
| Critic.Failures | critic.py:39-40 | the reference list of failures keeps only records whose outcome is `failed`, all taken from the report |
| Critic.FailuresComplete | critic.py:39-40 | every record whose outcome is `failed` is kept |
| Critic.FailuresAppend | critic.py:39-40 | failures keep report order: those of `a + b` are those of `a` followed by those of `b` |
| Critic.AnalyzeReport | critic.py:31-61 | one failed-test entry and one suggestion per failed record, in report order, paired by the record's `nodeid`; a report without `tests` gives two empty lists (the packaged copy at testagon/critic.py:34-64 is the same code) |
| Critic.FeedbackLoop | testagon/critic.py:66-112 | exactly one request per suggestion, in order, carrying the suggestion text; each classification belongs to that suggestion's test |
| Critic.ParseProblemSource | testagon/critic.py:81 | a `problem_source` is accepted exactly when it is `source` or `test` |
| Critic.ProblemSourceRoundTrip | testagon/critic.py:81 | the two classification values and their names correspond one to one |
| Critic.RunResult | critic.py:7-29 | `run_tests` reports success only for a passing run, and a report only for a failing run |
| Critic.CriticProcess | critic.py:93-102 | feedback is requested exactly when `not success and report`; then there is one request per failed test, carrying that test's suggestion |
| Critic.CriticOfRun | testagon/critic.py:117-126 | a passing run and a run that could not be executed both end with "All tests passed"; a failing run whose report lists tests gets feedback; an empty report gets none |
| Orchestrator.EligiblePaths | testagon/cli.py:32-34 | only paths that end in `.py` and do not start with `./tests/` are kept, all taken from the scan |
| Orchestrator.EligiblePathsComplete | testagon/cli.py:32-34 | every eligible scanned path is kept |
| Orchestrator.EligiblePathsAppend | testagon/cli.py:32-34 | eligible paths keep scan order |
| Orchestrator.Eligible | testagon/cli.py:33-34 | the two `continue` tests; stated by Orchestrator.EligiblePaths and Orchestrator.EligiblePathsComplete |
| Orchestrator.TestDir | testagon/cli.py:36 | the directory `makedirs` creates; Orchestrator.CreatedDirHoldsTestFile shows it is the test file's directory once normalised |
| Orchestrator.GenerateTests | testagon/cli.py:24-44 | one job per eligible path, in scan order, writing to its test path; the directory `tests/<dirname(path)>` is created before the job starts; every started job is joined, in start order |
| Orchestrator.SpawnJobs | testagon/cli.py:32-40 | the spawning loop creates one job per eligible path, in order, each after creating its directory |
| Orchestrator.JoinJobs | testagon/cli.py:43-44 | every started job is joined, in start order |
| Orchestrator.ScannedPathShape | testagon/util.py:11-21 | every path the scanner reports from `.` is `./` followed by ordinary names joined by `/` |
| Orchestrator.MirroredTestPath | testagon/cli.py:35-37 | an eligible scanned path `./x` is tested at `tests/x`, which again ends in `.py` |
| Orchestrator.ScannedTestPaths | testagon/cli.py:32-37 | over the whole scanned project, every job writes the mirror image of its source below `tests/`, and no two jobs write the same file |
| Orchestrator.CreatedDirHoldsTestFile | testagon/cli.py:35-37 | for every eligible scanned path, the directory created before its job starts is, once normalised, the directory of the file the job writes |

## Left out

- Requests to the language model, with their prompts and JSON schemas, are left out. They go to an external service. The model passes the service in as a function parameter and takes its parsed answer as given.
- Missing keys in the service's JSON answers are left out. Their `KeyError`s and `json.loads` failures come from an external format.
- Python's `ast.parse` is left out; it is a foreign library. Validity is the `parse` parameter.
- libcst parsing and serialisation are left out. The editor is modelled on a statement tree, and text round-tripping is the library's promise, not this repository's.
- Docstrings.EditDocs, Docstrings.Docstring: libcst's `get_docstring` cleans the text with `inspect.cleandoc`. The model uses the cleaned text only to decide whether the docstring is truthy; it hands the updater the literal's raw value, where libcst hands it the cleaned text. The truthiness test follows `inspect.cleandoc` up to Python 3.12, which strips the first line with `str.lstrip()`; a Python whose `cleandoc` strips only spaces there would find a first line holding other whitespace truthy. The model also does not model the `"""…"""` quoting of the new literal.
- Docstrings.EditStmt: the model works one statement at a time. When a source line holds several statements after the docstring (`"""d"""; x = 1`), replacing the first statement line also drops `x = 1`. The model cannot show that case.
- Docstrings.EditTouchesOnlyTargetDocs: `testagon/util.py:138` rebuilds each target's body as a fresh `cst.IndentedBlock`. This drops a comment after the `def` line's colon, the comment lines at the end of the block, and any non-default indentation. A one-line body (`def f(): return 1`) is re-laid as an indented block, whose statements libcst then writes without indentation or newline. The statement tree holds no comments, indentation or layout, so the lemma promises only that every statement other than the targets' docstrings is kept.
- Docstrings.MissLeavesModuleUnchanged: describes the corrected `update_docstring`. As written, every call raises `TypeError` at `testagon/util.py:147` (see "## Findings").
- Docstrings.EditSupersedes: describes the corrected `update_docstring`. As written, the first call already raises `TypeError` at `testagon/util.py:147`.
- Docstrings.EditIdempotent: describes the corrected `update_docstring`. As written, the first call already raises `TypeError` at `testagon/util.py:147`.
- Invariants.InsertInvariants, Invariants.RegenerationReplaces, Invariants.AnnotateIdempotent: the model threads the statement tree through the entries, while `generate_invariants.py:107` threads the text and parses it again for each entry. Because of the one-line-body layout described for Docstrings.EditTouchesOnlyTargetDocs, a target written `def f(): return 1` and followed by another statement comes out as text that no longer parses, and the next entry then raises at parse time. On such input these lemmas state results on the tree that the program does not reach.
- Critic.SuggestionText: the text is exactly what `textwrap.dedent` returns only when the name and the message are one line each, and the message is not made only of blanks and tabs. A multi-line message lowers the common margin, and that case is not modelled.
- Paths.TestPath: `os.path.relpath(…, os.getcwd())` is modelled as `normpath`. The two agree for the relative paths below the working directory that the scanner produces. The real working directory is not modelled.
- Running pytest and reading `report.json` are left out; they are process and file I/O. The `(report, success)` pair is an input.
- A report that is not a JSON object, a test record without `outcome` or `nodeid`, and a `call` that is `null` all raise in Python. They are not modelled.
- Threads are not modelled as running at the same time. The model records the order of the main thread's `makedirs`, `start` and `join` calls.
- Filesystem calls are replaced by an abstract tree: `os.listdir`, `isfile` / `isdir`, `realpath`, `open` and `makedirs`. Listing order is the tree's order. `isfile` and `isdir` follow symbolic links, so a link that resolves stands in the tree as its target, and only a broken link is "neither file nor directory". A link cycle cannot be held by the finite tree and is not modelled; the scanner would walk into it and list the same files again at each level until the system's limit on link resolution stops it.
- CLI plumbing is not modelled: `testagon.py`, `main`, `init_project` and `run_tests` in `testagon/cli.py`.
- `test_gen.py` is not part of this model. It is an older standalone script around a model request.
- Logging and `print` output are not modelled. The only exceptions are the two critic outcomes, which are modelled as the `Decision` values.
- `testagon/critic.py:8` calls `logging.getLogger` without importing `logging`, so importing that module raises `NameError`. The model describes the functions as if the module loaded.
- `generate_invariants.py:5` imports `update_docstring` from the root `util.py`, which does not define it. The model uses the packaged `update_docstring` of `testagon/util.py`.
- SyntaxRepair.GenerateInitial: `unit_tests.py:3` imports the root `util.py`, and `unit_tests.py:88` calls `util.get_project_structure()`, which that file does not define, so `generate_initial` as written raises `AttributeError` before it reaches lines 219-228. The model describes those lines as if they were reached. The generated body, whose prompt holds that listing, is an input.

## Findings

| source | as written | input that shows it | evidently intended | confidence | as-written member | corrected member |
|---|---|---|---|---|---|---|
| testagon/util.py:101 | the loop checks each repaired text with `validate_syntax(updated_source)`, which is the repair function itself called with the text as the client and no source, so it raises `TypeError` | any source that does not parse, with `max_iter >= 1`: for `pass(`, the first repair request is made and then the call raises | check the text with `is_valid_syntax(updated_source)` and stop at the first repair that parses | high; not executed | SyntaxRepair.ValidateSyntaxAsWritten | SyntaxRepair.ValidateSyntax |
| testagon/util.py:147 | the edited module's text is read with `new_tree.code()`, but libcst's `Module.code` is a property holding a string, so the call raises `TypeError: 'str' object is not callable` | every source that parses, whether or not it defines `function_name`: for `def f():` with the indented body `return 1` and target `f`, the edit succeeds and the final call raises | return `new_tree.code`, the edited module's text | high; not executed | Docstrings.UpdateDocstringAsWritten | Docstrings.UpdateDocstring |

=== FILE: critic.dfy ===
/** The critic: reading a pytest JSON report, pairing every failed test with a
    suggestion for the language model, and deciding from the outcome of a test run
    whether feedback is requested at all. The test run and the model are parameters;
    the report is the decoded JSON object. */
module Critic {
  import opened Strings

  /** The `call` phase of a test record; `longrepr` is absent for some outcomes. */
  datatype CallInfo = CallInfo(longrepr: Option<string>)

  /** One entry of the report's `tests` list. */
  datatype TestRecord = TestRecord(nodeid: string, outcome: string, call: Option<CallInfo>)

  /** The decoded report: its `tests` list when the key is present, and how many other
      keys the object has (only its emptiness matters). */
  datatype Report = Report(tests: Option<seq<TestRecord>>, otherKeys: nat)

  datatype FailedTest = FailedTest(testName: string, failureMessage: string)
  datatype Suggestion = Suggestion(testName: string, suggestion: string)
  datatype Analysis = Analysis(failedTests: seq<FailedTest>, suggestions: seq<Suggestion>)

  const NoFailureDetails := "No failure details"

  /** `test.get("call", {}).get("longrepr", "No failure details")`. */
  function FailureMessage(t: TestRecord): (r: string)
    ensures t.call.Some? && t.call.value.longrepr.Some? ==> r == t.call.value.longrepr.value
    ensures t.call.None? || t.call.value.longrepr.None? ==> r == NoFailureDetails
  {
    match t.call
    case None => NoFailureDetails
    case Some(c) => if c.longrepr.Some? then c.longrepr.value else NoFailureDetails
  }

  const SuggestionHead := "\nThe test `"
  const SuggestionMiddle := " failed. Here is the failure message:\n"
  const SuggestionTail := "\n\nPlease provide an explanation of why this failure might occur and suggest improved invariants or test conditions.\nConsider if there are any logic flaws in the source code that could cause this failure.\n"

  /** The dedented suggestion prompt for a test name and failure message that are each
      one line. */
  function SuggestionText(name: string, message: string): (r: string)
    ensures StartsWith(r, SuggestionHead + name + "`")
    ensures EndsWith(r, message + SuggestionTail)
    ensures OccursAt(r, name, |SuggestionHead|)
    ensures OccursAt(r, message, |SuggestionHead| + |name| + 1 + |SuggestionMiddle|)
  {
    var r := SuggestionHead + name + "`" + SuggestionMiddle + message + SuggestionTail;
    assert r[..|SuggestionHead + name + "`"|] == SuggestionHead + name + "`";
    assert r[|r| - |message + SuggestionTail|..] == message + SuggestionTail;
    assert r[|SuggestionHead|..|SuggestionHead| + |name|] == name;
    var k := |SuggestionHead| + |name| + 1 + |SuggestionMiddle|;
    assert r[k..k + |message|] == message;
    r
  }

  /** Different (name, message) pairs of one line each give different prompts. */
  lemma SuggestionTextInjective(n1: string, m1: string, n2: string, m2: string)
    requires '`' !in n1 && '`' !in n2
    requires SuggestionText(n1, m1) == SuggestionText(n2, m2)
    ensures n1 == n2 && m1 == m2
  {
    var t := SuggestionText(n1, m1);
    var h := |SuggestionHead|;
    assert t[h + |n1|] == '`' && t[h + |n2|] == '`';
    assert forall k :: h <= k < h + |n1| ==> t[k] == n1[k - h];
    assert forall k :: h <= k < h + |n2| ==> t[k] == n2[k - h];
    assert |n1| == |n2|;
    assert n1 == t[h..h + |n1|] == n2;
    var k := h + |n1| + 1 + |SuggestionMiddle|;
    assert m1 == t[k..k + |m1|] == m2;
  }

  /** The reference list of failures: the records whose outcome is `failed`, in
      report order. */
  function Failures(tests: seq<TestRecord>): (r: seq<TestRecord>)
    ensures |r| <= |tests|
    ensures forall i :: 0 <= i < |r| ==> r[i].outcome == "failed" && r[i] in tests
  {
    if |tests| == 0 then []
    else
      var rest := Failures(tests[1..]);
      assert forall i :: 0 <= i < |rest| ==> rest[i] in tests;
      if tests[0].outcome == "failed" then [tests[0]] + rest else rest
  }

  /** Exactly the failed records are kept. */
  lemma {:induction false} FailuresComplete(tests: seq<TestRecord>, t: TestRecord)
    requires t in tests && t.outcome == "failed"
    ensures t in Failures(tests)
  {
    if tests[0] != t {
      FailuresComplete(tests[1..], t);
    }
  }

  /** Failures of consecutive parts of a report come in the same order. */
  lemma {:induction false} FailuresAppend(a: seq<TestRecord>, b: seq<TestRecord>)
    decreases |a|
    ensures Failures(a + b) == Failures(a) + Failures(b)
  {
    if |a| == 0 {
      assert a + b == b;
    } else {
      assert (a + b)[0] == a[0];
      assert (a + b)[1..] == a[1..] + b;
      FailuresAppend(a[1..], b);
    }
  }

  /** The `tests` list of a report, empty when the key is absent. */
  function TestsOf(report: Report): seq<TestRecord> {
    if report.tests.Some? then report.tests.value else []
  }

  /** `analyze_report(report)`: one failed-test entry and one suggestion per failed
      record, in report order, sharing the record's node id as test name. */
  method AnalyzeReport(report: Report) returns (analysis: Analysis)
    ensures report.tests.None? ==> analysis == Analysis([], [])
    ensures |analysis.failedTests| == |analysis.suggestions| == |Failures(TestsOf(report))|
    ensures forall i :: 0 <= i < |analysis.failedTests| ==>
      var t := Failures(TestsOf(report))[i];
      analysis.failedTests[i] == FailedTest(t.nodeid, FailureMessage(t))
    ensures forall i :: 0 <= i < |analysis.suggestions| ==>
      var t := Failures(TestsOf(report))[i];
      analysis.suggestions[i] == Suggestion(t.nodeid, SuggestionText(t.nodeid, FailureMessage(t)))
  {
    var tests := TestsOf(report);
    var failed: seq<FailedTest> := [];
    var suggestions: seq<Suggestion> := [];
    var i := 0;
    while i < |tests|
      invariant 0 <= i <= |tests|
      invariant |failed| == |suggestions| == |Failures(tests[..i])|
      invariant forall k :: 0 <= k < |failed| ==>
        var t := Failures(tests[..i])[k];
        failed[k] == FailedTest(t.nodeid, FailureMessage(t)) &&
        suggestions[k] == Suggestion(t.nodeid, SuggestionText(t.nodeid, FailureMessage(t)))
    {
      var test := tests[i];
      FailuresAppend(tests[..i], [test]);
      assert tests[..i + 1] == tests[..i] + [test];
      if test.outcome == "failed" {
        var name := test.nodeid;
        var message := FailureMessage(test);
        failed := failed + [FailedTest(name, message)];
        suggestions := suggestions + [Suggestion(name, SuggestionText(name, message))];
      } else {
        assert Failures([test]) == [];
      }
      i := i + 1;
    }
    assert tests[..i] == tests;
    analysis := Analysis(failed, suggestions);
  }

  /** The two places a failing test can be blamed on. */
  datatype ProblemSource = Source | Test

  function ProblemSourceName(p: ProblemSource): string {
    match p
    case Source => "source"
    case Test => "test"
  }

  /** Reading the `problem_source` field of a classification: only the two enumerated
      values are accepted. */
  function ParseProblemSource(s: string): (r: Option<ProblemSource>)
    ensures r.Some? <==> s == "source" || s == "test"
  {
    if s == "source" then Some(Source)
    else if s == "test" then Some(Test)
    else None
  }

  lemma ProblemSourceRoundTrip(p: ProblemSource, s: string)
    ensures ParseProblemSource(ProblemSourceName(p)) == Some(p)
    ensures ParseProblemSource(s).Some? ==> ProblemSourceName(ParseProblemSource(s).value) == s
  {
  }

  /** A classification answered by the model for one suggestion. */
  datatype Classification = Classification(testName: string, explanation: string, problemSource: ProblemSource)

  /** `feedback_loop(client, analysis)`: one request per suggestion, in order, whose
      user message is the suggestion text. `classify` is the model's answer to a
      message. */
  method FeedbackLoop(classify: string -> (string, ProblemSource), analysis: Analysis)
    returns (requests: seq<string>, answers: seq<Classification>)
    ensures |requests| == |answers| == |analysis.suggestions|
    ensures forall i :: 0 <= i < |requests| ==>
      requests[i] == analysis.suggestions[i].suggestion &&
      answers[i] == Classification(analysis.suggestions[i].testName, classify(requests[i]).0, classify(requests[i]).1)
  {
    requests := [];
    answers := [];
    for i := 0 to |analysis.suggestions|
      invariant |requests| == |answers| == i
      invariant forall k :: 0 <= k < i ==>
        requests[k] == analysis.suggestions[k].suggestion &&
        answers[k] == Classification(analysis.suggestions[k].testName, classify(requests[k]).0, classify(requests[k]).1)
    {
      var s := analysis.suggestions[i];
      var (explanation, source) := classify(s.suggestion);
      requests := requests + [s.suggestion];
      answers := answers + [Classification(s.testName, explanation, source)];
    }
  }

  /** Python truthiness of the report `run_tests` returned: `None` and the empty object
      are false. */
  predicate ReportTruthy(report: Option<Report>) {
    report.Some? && (report.value.tests.Some? || report.value.otherKeys > 0)
  }

  /** What `run_tests` can return: all passed with no report, a failing run with its
      report, or a run that could not be executed. */
  datatype RunOutcome = Passed | FailedRun(report: Report) | Crashed

  function RunResult(o: RunOutcome): (r: (Option<Report>, bool))
    ensures r.1 <==> o.Passed?
    ensures r.0.Some? <==> o.FailedRun?
  {
    match o
    case Passed => (None, true)
    case FailedRun(report) => (Some(report), false)
    case Crashed => (None, false)
  }

  /** The end of a critic run: feedback on an analysis with the requests sent, or the
      "all tests passed" message. */
  datatype Decision = Feedback(analysis: Analysis, requests: seq<string>, answers: seq<Classification>) | AllPassed

  /** `critic_process`: feedback is requested exactly when the run failed and the
      report is truthy; then every failed test gets one request, in report order. */
  method CriticProcess(classify: string -> (string, ProblemSource), report: Option<Report>, success: bool)
    returns (d: Decision)
    ensures d.Feedback? <==> !success && ReportTruthy(report)
    ensures d.Feedback? ==> |d.requests| == |d.answers| == |d.analysis.suggestions| == |Failures(TestsOf(report.value))|
    ensures d.Feedback? ==> forall i :: 0 <= i < |d.requests| ==>
      var t := Failures(TestsOf(report.value))[i];
      d.requests[i] == SuggestionText(t.nodeid, FailureMessage(t)) && d.answers[i].testName == t.nodeid
  {
    if !success && ReportTruthy(report) {
      var analysis := AnalyzeReport(report.value);
      var requests, answers := FeedbackLoop(classify, analysis);
      d := Feedback(analysis, requests, answers);
    } else {
      d := AllPassed;
    }
  }

  /** A run that could not be executed ends with the "all tests passed" message, as does
      a run that passed; a failing run with a report that lists tests gets feedback. */
  method CriticOfRun(classify: string -> (string, ProblemSource), o: RunOutcome) returns (d: Decision)
    ensures o.Passed? || o.Crashed? ==> d == AllPassed
    ensures o.FailedRun? && o.report.tests.Some? ==> d.Feedback?
    ensures o.FailedRun? && o.report.tests == None && o.report.otherKeys == 0 ==> d == AllPassed
  {
    var (report, success) := RunResult(o);
    d := CriticProcess(classify, report, success);
  }
}

=== FILE: docstrings.dfy ===
/** The structural docstring editor of `testagon/util.py` (`DocstringEditor` and
    `update_docstring`), over an abstract Python module.

    A module is a sequence of statements. Function definitions carry their name and
    body; compound statements (classes, `if`, `for`, `with`, ...) carry a body in which
    further definitions may sit; a statement that is a lone string literal is the
    candidate docstring when it comes first in a function body. Parsing and
    re-serialising source text is the parser library's business and is not modelled:
    the editor works on the tree. */
module Docstrings {
  import opened Strings

  datatype Stmt =
    | StringExpr(value: string)
    | FunctionDef(name: string, body: seq<Stmt>)
    | Compound(header: string, body: seq<Stmt>)
    | Simple(code: string)

  type Module = seq<Stmt>

  /** The function's docstring, as the parser library reports it: the value of a
      leading string-literal statement, if there is one. */
  function Docstring(body: seq<Stmt>): Option<string> {
    if |body| > 0 && body[0].StringExpr? then Some(body[0].value) else None
  }

  /** `inspect.cleandoc(d) == ""`: the first line is all whitespace (`lstrip` removes it)
      and every later line is empty. A later line of blanks survives cleaning, since
      only lines with content set the margin that is cut off. */
  predicate CleansToEmpty(d: string) {
    && AllSpace(d)
    && forall j, i :: 0 <= j < i < |d| && d[j] == '\n' ==> d[i] == '\n'
  }

  /** Python truthiness of the docstring the parser library reports, which is the
      literal's value cleaned by `inspect.cleandoc`: absent, empty and whitespace-only
      docstrings are all false. */
  predicate DocstringTruthy(doc: Option<string>) {
    doc.Some? && !CleansToEmpty(doc.value)
  }

  /** `leave_FunctionDef` applied bottom-up to one statement: definitions named `target`
      get a new leading docstring computed by `updater`; every nested statement is
      visited first. */
  function EditStmt(s: Stmt, target: string, updater: string -> string): Stmt
    decreases s
  {
    match s
    case FunctionDef(n, body) =>
      var body' := EditBody(body, target, updater);
      if n == target then
        if DocstringTruthy(Docstring(body)) then
          FunctionDef(n, [StringExpr(updater(Docstring(body).value))] + body'[1..])
        else
          FunctionDef(n, [StringExpr(updater(""))] + body')
      else FunctionDef(n, body')
    case Compound(h, body) => Compound(h, EditBody(body, target, updater))
    case _ => s
  }

  /** The transformer applied to each statement of a body, in order. */
  function EditBody(ss: seq<Stmt>, target: string, updater: string -> string): (r: seq<Stmt>)
    decreases ss
    ensures |r| == |ss|
  {
    if |ss| == 0 then [] else [EditStmt(ss[0], target, updater)] + EditBody(ss[1..], target, updater)
  }

  /** `update_docstring(source, function_name, updater)` on the parsed module, returning
      the edited module (the text `new_tree.code` holds): no definition is added,
      removed or renamed, and each definition's docstring is what `ExpectedDocs` says. */
  function UpdateDocstring(m: Module, functionName: string, updater: string -> string): (r: Module)
    ensures Names(r) == Names(m)
    ensures Docs(r) == ExpectedDocs(Docs(m), functionName, updater)
  {
    EditKeepsNames(m, functionName, updater);
    EditDocs(m, functionName, updater);
    EditBody(m, functionName, updater)
  }

  /** How `update_docstring` ends as written. */
  datatype UpdateOutcome = Updated(edited: Module) | RaisedTypeError

  /** `update_docstring` as written: the module is edited, but its text is read with
      `new_tree.code()`. The parser library's `Module.code` is a property holding the
      text, so the call applies a string and raises `TypeError`, whatever the module,
      the target and the updater. */
  function UpdateDocstringAsWritten(m: Module, functionName: string, updater: string -> string): (r: UpdateOutcome)
    ensures !r.Updated?
  {
    RaisedTypeError
  }

  /** The names of all function definitions, nested ones included, in source order. */
  function Names(ss: seq<Stmt>): seq<string>
    decreases ss
  {
    if |ss| == 0 then [] else StmtNames(ss[0]) + Names(ss[1..])
  }

  function StmtNames(s: Stmt): seq<string>
    decreases s
  {
    match s
    case FunctionDef(n, body) => [n] + Names(body)
    case Compound(_, body) => Names(body)
    case _ => []
  }

  /** Every definition, nested ones included, as its name and docstring, in source order. */
  function Docs(ss: seq<Stmt>): seq<(string, Option<string>)>
    decreases ss
  {
    if |ss| == 0 then [] else StmtDocs(ss[0]) + Docs(ss[1..])
  }

  function StmtDocs(s: Stmt): seq<(string, Option<string>)>
    decreases s
  {
    match s
    case FunctionDef(n, body) => [(n, Docstring(body))] + Docs(body)
    case Compound(_, body) => Docs(body)
    case _ => []
  }

  /** What the editor is meant to do to one definition's docstring: a matching definition
      ends up with `updater` applied to its docstring (or to "" when it is not truthy);
      other definitions keep theirs. */
  function ExpectedDoc(entry: (string, Option<string>), target: string, updater: string -> string): (string, Option<string>) {
    if entry.0 == target then
      (entry.0, Some(updater(if DocstringTruthy(entry.1) then entry.1.value else "")))
    else entry
  }

  function ExpectedDocs(ds: seq<(string, Option<string>)>, target: string, updater: string -> string): (r: seq<(string, Option<string>)>)
    ensures |r| == |ds|
  {
    if |ds| == 0 then [] else [ExpectedDoc(ds[0], target, updater)] + ExpectedDocs(ds[1..], target, updater)
  }

  /** The module with the leading (truthy) docstring of every definition named `target`
      removed: the part of the module the editor must leave alone. */
  function WithoutTargetDocs(ss: seq<Stmt>, target: string): seq<Stmt>
    decreases ss
  {
    if |ss| == 0 then [] else [StmtWithoutTargetDoc(ss[0], target)] + WithoutTargetDocs(ss[1..], target)
  }

  function StmtWithoutTargetDoc(s: Stmt, target: string): Stmt
    decreases s
  {
    match s
    case FunctionDef(n, body) =>
      var rest := if n == target && DocstringTruthy(Docstring(body)) then body[1..] else body;
      FunctionDef(n, WithoutTargetDocs(rest, target))
    case Compound(h, body) => Compound(h, WithoutTargetDocs(body, target))
    case _ => s
  }

  // ---------------------------------------------------------------------------
  // Structural facts about the traversal

  lemma {:induction false} EditBodyIndex(ss: seq<Stmt>, target: string, updater: string -> string, i: nat)
    requires i < |ss|
    decreases ss
    ensures EditBody(ss, target, updater)[i] == EditStmt(ss[i], target, updater)
  {
    if i > 0 {
      EditBodyIndex(ss[1..], target, updater, i - 1);
    }
  }

  lemma {:induction false} EditBodyAppend(a: seq<Stmt>, b: seq<Stmt>, target: string, updater: string -> string)
    decreases a
    ensures EditBody(a + b, target, updater) == EditBody(a, target, updater) + EditBody(b, target, updater)
  {
    if |a| == 0 {
      assert a + b == b;
    } else {
      assert (a + b)[1..] == a[1..] + b;
      EditBodyAppend(a[1..], b, target, updater);
    }
  }

  /** Editing a body and dropping its first statement is dropping first and then editing. */
  lemma {:induction false} EditBodyTail(ss: seq<Stmt>, target: string, updater: string -> string)
    requires |ss| > 0
    ensures EditBody(ss, target, updater)[1..] == EditBody(ss[1..], target, updater)
  {
  }

  /** The editor never changes what kind of statement sits at a position, and leaves
      string statements alone; so a body's docstring survives the editing of the
      definitions nested in it. */
  lemma DocstringOfEditedBody(ss: seq<Stmt>, target: string, updater: string -> string)
    ensures Docstring(EditBody(ss, target, updater)) == Docstring(ss)
  {
    if |ss| > 0 {
      EditBodyIndex(ss, target, updater, 0);
    }
  }

  lemma {:induction false} NamesAppend(a: seq<Stmt>, b: seq<Stmt>)
    decreases a
    ensures Names(a + b) == Names(a) + Names(b)
  {
    if |a| == 0 {
      assert a + b == b;
    } else {
      assert (a + b)[1..] == a[1..] + b;
      NamesAppend(a[1..], b);
    }
  }

  lemma {:induction false} DocsAppend(a: seq<Stmt>, b: seq<Stmt>)
    decreases a
    ensures Docs(a + b) == Docs(a) + Docs(b)
  {
    if |a| == 0 {
      assert a + b == b;
    } else {
      assert (a + b)[1..] == a[1..] + b;
      DocsAppend(a[1..], b);
    }
  }

  lemma {:induction false} ExpectedDocsAppend(a: seq<(string, Option<string>)>, b: seq<(string, Option<string>)>, target: string, updater: string -> string)
    decreases a
    ensures ExpectedDocs(a + b, target, updater) == ExpectedDocs(a, target, updater) + ExpectedDocs(b, target, updater)
  {
    if |a| == 0 {
      assert a + b == b;
    } else {
      assert (a + b)[1..] == a[1..] + b;
      ExpectedDocsAppend(a[1..], b, target, updater);
    }
  }

  lemma {:induction false} WithoutTargetDocsAppend(a: seq<Stmt>, b: seq<Stmt>, target: string)
    decreases a
    ensures WithoutTargetDocs(a + b, target) == WithoutTargetDocs(a, target) + WithoutTargetDocs(b, target)
  {
    if |a| == 0 {
      assert a + b == b;
    } else {
      assert (a + b)[1..] == a[1..] + b;
      WithoutTargetDocsAppend(a[1..], b, target);
    }
  }

  // ---------------------------------------------------------------------------
  // Locality: what changes and what does not

  /** A module in which no definition is named `functionName` is returned unchanged. */
  lemma {:induction false} MissLeavesModuleUnchanged(m: Module, functionName: string, updater: string -> string)
    requires functionName !in Names(m)
    decreases m
    ensures UpdateDocstring(m, functionName, updater) == m
  {
    if |m| > 0 {
      NamesAppend([m[0]], m[1..]);
      assert [m[0]] + m[1..] == m;
      assert Names([m[0]]) == StmtNames(m[0]);
      MissLeavesStmtUnchanged(m[0], functionName, updater);
      MissLeavesModuleUnchanged(m[1..], functionName, updater);
    }
  }

  lemma {:induction false} MissLeavesStmtUnchanged(s: Stmt, functionName: string, updater: string -> string)
    requires functionName !in StmtNames(s)
    decreases s
    ensures EditStmt(s, functionName, updater) == s
  {
    match s
    case FunctionDef(n, body) =>
      MissLeavesModuleUnchanged(body, functionName, updater);
    case Compound(h, body) =>
      MissLeavesModuleUnchanged(body, functionName, updater);
    case _ =>
  }

  /** The edit neither adds, removes nor renames definitions: the names, nested ones
      included, are the same and in the same order. */
  lemma {:induction false} EditKeepsNames(m: Module, functionName: string, updater: string -> string)
    decreases m
    ensures Names(EditBody(m, functionName, updater)) == Names(m)
  {
    if |m| > 0 {
      EditKeepsStmtNames(m[0], functionName, updater);
      EditKeepsNames(m[1..], functionName, updater);
    }
  }

  lemma {:induction false} EditKeepsStmtNames(s: Stmt, functionName: string, updater: string -> string)
    decreases s
    ensures StmtNames(EditStmt(s, functionName, updater)) == StmtNames(s)
  {
    match s
    case FunctionDef(n, body) =>
      var body' := EditBody(body, functionName, updater);
      EditKeepsNames(body, functionName, updater);
      if n == functionName {
        var doc := [StringExpr(updater(if DocstringTruthy(Docstring(body)) then Docstring(body).value else ""))];
        if DocstringTruthy(Docstring(body)) {
          NamesAppend(doc, body'[1..]);
          NamesAppend([body[0]], body[1..]);
          assert [body[0]] + body[1..] == body;
          EditBodyTail(body, functionName, updater);
          EditKeepsNames(body[1..], functionName, updater);
        } else {
          NamesAppend(doc, body');
        }
      }
    case Compound(h, body) =>
      EditKeepsNames(body, functionName, updater);
    case _ =>
  }

  /** Every definition named `functionName`, nested definitions and methods included,
      gets `updater` applied to its docstring (or to "" when it has none or one that
      cleans to nothing); every other definition keeps its docstring. */
  lemma {:induction false} EditDocs(m: Module, functionName: string, updater: string -> string)
    decreases m
    ensures Docs(EditBody(m, functionName, updater)) == ExpectedDocs(Docs(m), functionName, updater)
  {
    if |m| > 0 {
      EditStmtDocs(m[0], functionName, updater);
      EditDocs(m[1..], functionName, updater);
      ExpectedDocsAppend(StmtDocs(m[0]), Docs(m[1..]), functionName, updater);
    }
  }

  lemma {:induction false} EditStmtDocs(s: Stmt, functionName: string, updater: string -> string)
    decreases s
    ensures StmtDocs(EditStmt(s, functionName, updater)) == ExpectedDocs(StmtDocs(s), functionName, updater)
  {
    match s
    case FunctionDef(n, body) =>
      var body' := EditBody(body, functionName, updater);
      EditDocs(body, functionName, updater);
      DocstringOfEditedBody(body, functionName, updater);
      ExpectedDocsAppend([(n, Docstring(body))], Docs(body), functionName, updater);
      if n == functionName {
        var newDoc := updater(if DocstringTruthy(Docstring(body)) then Docstring(body).value else "");
        if DocstringTruthy(Docstring(body)) {
          DocsAppend([StringExpr(newDoc)], body'[1..]);
          DocsAppend([body[0]], body[1..]);
          assert [body[0]] + body[1..] == body;
          EditBodyTail(body, functionName, updater);
          EditDocs(body[1..], functionName, updater);
          assert Docs([StringExpr(newDoc)]) == [];
          assert Docs([body[0]]) == [];
        } else {
          DocsAppend([StringExpr(newDoc)], body');
          assert Docs([StringExpr(newDoc)]) == [];
        }
      }
    case Compound(h, body) =>
      EditDocs(body, functionName, updater);
    case _ =>
  }

  /** Apart from the leading docstrings of the definitions named `functionName`, the
      module is unchanged: every other statement, at every depth, is as it was. This
      holds whenever the updater never produces a docstring that cleans to nothing. */
  lemma {:induction false} EditTouchesOnlyTargetDocs(m: Module, functionName: string, updater: string -> string)
    requires forall d :: !CleansToEmpty(updater(d))
    decreases m
    ensures WithoutTargetDocs(UpdateDocstring(m, functionName, updater), functionName) == WithoutTargetDocs(m, functionName)
  {
    if |m| > 0 {
      EditTouchesOnlyTargetDoc(m[0], functionName, updater);
      EditTouchesOnlyTargetDocs(m[1..], functionName, updater);
    }
  }

  lemma {:induction false} EditTouchesOnlyTargetDoc(s: Stmt, functionName: string, updater: string -> string)
    requires forall d :: !CleansToEmpty(updater(d))
    decreases s
    ensures StmtWithoutTargetDoc(EditStmt(s, functionName, updater), functionName) == StmtWithoutTargetDoc(s, functionName)
  {
    match s
    case FunctionDef(n, body) =>
      var body' := EditBody(body, functionName, updater);
      EditTouchesOnlyTargetDocs(body, functionName, updater);
      if n == functionName {
        var newDoc := updater(if DocstringTruthy(Docstring(body)) then Docstring(body).value else "");
        if DocstringTruthy(Docstring(body)) {
          var edited := [StringExpr(newDoc)] + body'[1..];
          assert edited[1..] == body'[1..];
          EditBodyTail(body, functionName, updater);
          EditTouchesOnlyTargetDocs(body[1..], functionName, updater);
        } else {
          var edited := [StringExpr(newDoc)] + body';
          assert edited[1..] == body';
        }
      }
    case Compound(h, body) =>
      EditTouchesOnlyTargetDocs(body, functionName, updater);
    case _ =>
  }

  /** A second edit with `updater2` after one with `updater1` gives what `updater2` alone
      would, when `updater2` discards whatever `updater1` added and `updater1` never
      produces a docstring that cleans to nothing. With `updater1 == updater2` this is idempotence. */
  lemma {:induction false} EditSupersedes(m: Module, functionName: string, updater1: string -> string, updater2: string -> string)
    requires forall d :: !CleansToEmpty(updater1(d))
    requires forall d :: updater2(updater1(d)) == updater2(d)
    decreases m
    ensures UpdateDocstring(UpdateDocstring(m, functionName, updater1), functionName, updater2)
         == UpdateDocstring(m, functionName, updater2)
  {
    if |m| > 0 {
      StmtEditSupersedes(m[0], functionName, updater1, updater2);
      EditSupersedes(m[1..], functionName, updater1, updater2);
    }
  }

  lemma {:induction false} StmtEditSupersedes(s: Stmt, functionName: string, updater1: string -> string, updater2: string -> string)
    requires forall d :: !CleansToEmpty(updater1(d))
    requires forall d :: updater2(updater1(d)) == updater2(d)
    decreases s
    ensures EditStmt(EditStmt(s, functionName, updater1), functionName, updater2)
         == EditStmt(s, functionName, updater2)
  {
    match s
    case FunctionDef(n, body) =>
      var body1 := EditBody(body, functionName, updater1);
      EditSupersedes(body, functionName, updater1, updater2);
      if n == functionName {
        var d := if DocstringTruthy(Docstring(body)) then Docstring(body).value else "";
        var edited := if DocstringTruthy(Docstring(body)) then [StringExpr(updater1(d))] + body1[1..]
                      else [StringExpr(updater1(d))] + body1;
        assert DocstringTruthy(Docstring(edited));
        EditBodyTail(edited, functionName, updater2);
        if DocstringTruthy(Docstring(body)) {
          assert edited[1..] == body1[1..];
          EditBodyTail(body, functionName, updater1);
          EditBodyTail(body, functionName, updater2);
          EditSupersedes(body[1..], functionName, updater1, updater2);
        } else {
          assert edited[1..] == body1;
        }
      } else {
        DocstringOfEditedBody(body, functionName, updater1);
      }
    case Compound(h, body) =>
      EditSupersedes(body, functionName, updater1, updater2);
    case _ =>
  }

  /** Applying the same edit twice is applying it once, for an idempotent updater that
      never produces a docstring that cleans to nothing. */
  lemma EditIdempotent(m: Module, functionName: string, updater: string -> string)
    requires forall d :: !CleansToEmpty(updater(d))
    requires forall d :: updater(updater(d)) == updater(d)
    ensures UpdateDocstring(UpdateDocstring(m, functionName, updater), functionName, updater)
         == UpdateDocstring(m, functionName, updater)
  {
    EditSupersedes(m, functionName, updater, updater);
  }

  /** A docstring of blanks counts as absent, so the new docstring goes in front of
      the blank literal; blanks on a line after the first are kept by cleaning, so such
      a docstring is replaced. */
  lemma BlankDocstrings(f: string, updater: string -> string)
    ensures EditStmt(FunctionDef(f, [StringExpr(" \t ")]), f, updater)
         == FunctionDef(f, [StringExpr(updater("")), StringExpr(" \t ")])
    ensures EditStmt(FunctionDef(f, [StringExpr("\n  ")]), f, updater)
         == FunctionDef(f, [StringExpr(updater("\n  "))])
  {
    var blank := " \t ";
    assert IsSpace(blank[0]) && IsSpace(blank[1]) && IsSpace(blank[2]);
    assert CleansToEmpty(blank);
    var indented := "\n  ";
    assert indented[0] == '\n' && indented[1] != '\n';
    assert !CleansToEmpty(indented);
    assert [StringExpr(updater(indented))] + [StringExpr(indented)][1..] == [StringExpr(updater(indented))];
  }

  /** As written, adding a docstring to `f` in `def f():` with the indented body
      `return 1` raises, although the edit itself succeeds: the intended result puts
      `updater("")` in front of the body. */
  lemma UpdateDocstringAsWrittenRaises(updater: string -> string)
    ensures UpdateDocstringAsWritten([FunctionDef("f", [Simple("return 1")])], "f", updater) == RaisedTypeError
    ensures UpdateDocstring([FunctionDef("f", [Simple("return 1")])], "f", updater)
         == [FunctionDef("f", [StringExpr(updater("")), Simple("return 1")])]
  {
    var body := [Simple("return 1")];
    var m := [FunctionDef("f", body)];
    assert EditBody(body, "f", updater) == body;
    assert !DocstringTruthy(Docstring(body));
    assert EditStmt(m[0], "f", updater) == FunctionDef("f", [StringExpr(updater(""))] + body);
    assert EditBody(m, "f", updater) == [EditStmt(m[0], "f", updater)] + EditBody(m[1..], "f", updater);
    assert [StringExpr(updater(""))] + body == [StringExpr(updater("")), Simple("return 1")];
  }
}

=== FILE: fstree.dfy ===
/** The project directory as an abstract tree, the two listings made of it — the flat
    list of visible file paths that drives test generation, and the nested
    file/dir structure of the root `util.py` — and the indented outline rendered from
    the nested structure. A directory's listing is a sequence in the order the
    filesystem reports it. */
module FsTree {
  import opened Strings
  import opened Paths

  /** One directory entry: a regular file, a directory with its listing, or anything
      else (a socket, a broken link), which is neither a file nor a directory. */
  datatype Entry =
    | File(name: string)
    | Dir(name: string, children: seq<Entry>)
    | Other(name: string)

  /** Names starting with a dot are hidden from the project scan. */
  predicate Hidden(name: string) {
    StartsWith(name, ".")
  }

  // ---------------------------------------------------------------------------
  // get_project_structure

  /** The visible files below `path`, as `path` joined with each name on the way down,
      in listing order with directory contents spliced in place. */
  function Scan(path: string, entries: seq<Entry>): seq<string>
    decreases entries
  {
    if |entries| == 0 then []
    else ScanEntry(path, entries[0]) + Scan(path, entries[1..])
  }

  function ScanEntry(path: string, e: Entry): seq<string>
    decreases e
  {
    if Hidden(e.name) then []
    else
      var p := PathJoin(path, e.name);
      match e
      case File(_) => [p]
      case Dir(_, children) => Scan(p, children)
      case Other(_) => []
  }

  /** Every name occurring anywhere in the tree, hidden or not. */
  function TreeNames(entries: seq<Entry>): set<string>
    decreases entries
  {
    if |entries| == 0 then {} else EntryNames(entries[0]) + TreeNames(entries[1..])
  }

  function EntryNames(e: Entry): set<string>
    decreases e
  {
    {e.name} + (if e.Dir? then TreeNames(e.children) else {})
  }

  /** What a directory listing can contain: non-empty names without a slash. */
  predicate WellNamed(entries: seq<Entry>) {
    forall n :: n in TreeNames(entries) ==> n != "" && '/' !in n
  }

  /** Reference description of the scan: the chain of names from the listing down to
      each visible file, in preorder. */
  function VisibleChains(entries: seq<Entry>): (r: seq<seq<string>>)
    decreases entries
    ensures forall i :: 0 <= i < |r| ==> |r[i]| >= 1
    ensures forall i, j :: 0 <= i < |r| && 0 <= j < |r[i]| ==> !Hidden(r[i][j]) && r[i][j] in TreeNames(entries)
  {
    if |entries| == 0 then []
    else
      var a := EntryChains(entries[0]);
      var b := VisibleChains(entries[1..]);
      var r := a + b;
      assert forall i :: 0 <= i < |a| ==> r[i] == a[i];
      assert forall i :: |a| <= i < |r| ==> r[i] == b[i - |a|];
      r
  }

  function EntryChains(e: Entry): (r: seq<seq<string>>)
    decreases e
    ensures forall i :: 0 <= i < |r| ==> |r[i]| >= 1
    ensures forall i, j :: 0 <= i < |r| && 0 <= j < |r[i]| ==> !Hidden(r[i][j]) && r[i][j] in EntryNames(e)
  {
    if Hidden(e.name) then []
    else
      match e
      case File(n) => [[n]]
      case Dir(n, children) =>
        var cs := VisibleChains(children);
        var r := PrependAll(n, cs);
        assert forall i, j :: 0 <= i < |r| && 1 <= j < |r[i]| ==> r[i][j] == cs[i][j - 1];
        r
      case Other(_) => []
  }

  function PrependAll(n: string, chains: seq<seq<string>>): (r: seq<seq<string>>)
    ensures |r| == |chains|
    ensures forall i :: 0 <= i < |r| ==> r[i] == [n] + chains[i]
  {
    if |chains| == 0 then [] else [[n] + chains[0]] + PrependAll(n, chains[1..])
  }

  /** Joining a chain of names onto `path` one `os.path.join` at a time. */
  function PathFold(path: string, chain: seq<string>): string
    decreases |chain|
  {
    if |chain| == 0 then path else PathFold(PathJoin(path, chain[0]), chain[1..])
  }

  function PathsOf(path: string, chains: seq<seq<string>>): (r: seq<string>)
    ensures |r| == |chains|
    ensures forall i :: 0 <= i < |r| ==> r[i] == PathFold(path, chains[i])
  {
    if |chains| == 0 then [] else [PathFold(path, chains[0])] + PathsOf(path, chains[1..])
  }

  lemma PathsOfAppend(path: string, a: seq<seq<string>>, b: seq<seq<string>>)
    ensures PathsOf(path, a + b) == PathsOf(path, a) + PathsOf(path, b)
  {
    var l := PathsOf(path, a + b);
    var r := PathsOf(path, a) + PathsOf(path, b);
    assert |l| == |r|;
    forall i | 0 <= i < |l| ensures l[i] == r[i] {
      if i < |a| {
        assert (a + b)[i] == a[i] && r[i] == PathsOf(path, a)[i];
      } else {
        assert (a + b)[i] == b[i - |a|] && r[i] == PathsOf(path, b)[i - |a|];
      }
    }
  }

  lemma PathsOfPrepend(path: string, n: string, chains: seq<seq<string>>)
    ensures PathsOf(path, PrependAll(n, chains)) == PathsOf(PathJoin(path, n), chains)
  {
    var l := PathsOf(path, PrependAll(n, chains));
    var r := PathsOf(PathJoin(path, n), chains);
    forall i | 0 <= i < |l| ensures l[i] == r[i] {
      assert ([n] + chains[i])[1..] == chains[i];
    }
  }

  /** The scan lists exactly the visible files, each as the start path joined with its
      chain of names, in preorder. */
  lemma {:induction false} ScanChains(path: string, entries: seq<Entry>)
    decreases entries
    ensures Scan(path, entries) == PathsOf(path, VisibleChains(entries))
  {
    if |entries| > 0 {
      ScanEntryChains(path, entries[0]);
      ScanChains(path, entries[1..]);
      PathsOfAppend(path, EntryChains(entries[0]), VisibleChains(entries[1..]));
    }
  }

  lemma {:induction false} ScanEntryChains(path: string, e: Entry)
    decreases e
    ensures ScanEntry(path, e) == PathsOf(path, EntryChains(e))
  {
    if !Hidden(e.name) {
      match e
      case File(n) =>
        assert PathsOf(path, [[n]]) == [PathFold(path, [n])];
      case Dir(n, children) =>
        ScanChains(PathJoin(path, n), children);
        PathsOfPrepend(path, n, VisibleChains(children));
      case Other(_) =>
    }
  }

  /** Scanning a listing made of two parts scans each part in turn. */
  lemma {:induction false} ScanAppend(path: string, a: seq<Entry>, b: seq<Entry>)
    decreases |a|
    ensures Scan(path, a + b) == Scan(path, a) + Scan(path, b)
  {
    if |a| > 0 {
      assert (a + b)[0] == a[0];
      assert (a + b)[1..] == a[1..] + b;
      ScanAppend(path, a[1..], b);
    } else {
      assert a + b == b;
    }
  }

  /** A hidden entry contributes nothing, whatever it contains. */
  lemma ScanSkipsHidden(path: string, a: seq<Entry>, e: Entry, b: seq<Entry>)
    requires Hidden(e.name)
    ensures Scan(path, a + [e] + b) == Scan(path, a + b)
  {
    ScanAppend(path, a + [e], b);
    ScanAppend(path, a, [e]);
    ScanAppend(path, a, b);
  }

  /** Joining ordinary names onto a directory path puts one slash between each. */
  lemma {:induction false} PathFoldOrdinary(path: string, chain: seq<string>)
    requires |path| > 0 && path[|path| - 1] != '/'
    requires |chain| >= 1 && OrdinaryNames(chain)
    decreases |chain|
    ensures PathFold(path, chain) == path + "/" + Join(chain, "/")
  {
    var c := chain[0];
    assert c[0] != '/';
    var p := PathJoin(path, c);
    assert p == path + "/" + c;
    if |chain| == 1 {
      assert PathFold(p, chain[1..]) == p;
    } else {
      var rest := chain[1..];
      assert p[|p| - 1] == c[|c| - 1];
      PathFoldOrdinary(p, rest);
      JoinCons(c, rest, "/");
      assert [c] + rest == chain;
    }
  }

  /** Scanning the working directory `.` of a tree of well-formed names reports each
      visible file as `./` followed by its chain of ordinary names joined by slashes —
      the form the test generator expects. */
  lemma ScanFromDot(entries: seq<Entry>)
    requires WellNamed(entries)
    ensures |Scan(".", entries)| == |VisibleChains(entries)|
    ensures forall i :: 0 <= i < |Scan(".", entries)| ==>
      OrdinaryNames(VisibleChains(entries)[i]) && Scan(".", entries)[i] == "./" + Join(VisibleChains(entries)[i], "/")
  {
    ScanChains(".", entries);
    var chains := VisibleChains(entries);
    forall i | 0 <= i < |chains|
      ensures OrdinaryNames(chains[i]) && PathFold(".", chains[i]) == "./" + Join(chains[i], "/")
    {
      VisibleChainOrdinary(entries, i);
      DotFold(chains[i]);
    }
  }

  lemma VisibleChainOrdinary(entries: seq<Entry>, i: nat)
    requires WellNamed(entries) && i < |VisibleChains(entries)|
    ensures OrdinaryNames(VisibleChains(entries)[i])
  {
    var chain := VisibleChains(entries)[i];
    forall j | 0 <= j < |chain| ensures OrdinaryName(chain[j]) {
      var n := chain[j];
      assert n in TreeNames(entries) && !Hidden(n);
      assert n != "" && '/' !in n;
      assert [n[0]] <= n;
    }
  }

  lemma DotFold(chain: seq<string>)
    requires |chain| >= 1 && OrdinaryNames(chain)
    ensures PathFold(".", chain) == "./" + Join(chain, "/")
  {
    PathFoldOrdinary(".", chain);
    assert "." + "/" + Join(chain, "/") == "./" + Join(chain, "/");
  }

  /** Independent description of what the scan lists: `chain` leads through the
      listing to a regular file, each name on the way naming an entry that is not
      hidden, every name before the last naming a directory. */
  predicate VisibleFileAt(entries: seq<Entry>, chain: seq<string>)
    decreases entries
  {
    exists k :: 0 <= k < |entries| && FileAtEntry(entries[k], chain)
  }

  predicate FileAtEntry(e: Entry, chain: seq<string>)
    decreases e
  {
    && |chain| >= 1 && chain[0] == e.name && !Hidden(e.name)
    && match e
       case File(_) => |chain| == 1
       case Dir(_, children) => VisibleFileAt(children, chain[1..])
       case Other(_) => false
  }

  lemma VisibleFileAtCons(entries: seq<Entry>, chain: seq<string>)
    requires |entries| > 0
    ensures VisibleFileAt(entries, chain)
        <==> FileAtEntry(entries[0], chain) || VisibleFileAt(entries[1..], chain)
  {
    if VisibleFileAt(entries, chain) {
      var k :| 0 <= k < |entries| && FileAtEntry(entries[k], chain);
      if k > 0 {
        assert entries[1..][k - 1] == entries[k];
      }
    }
    if VisibleFileAt(entries[1..], chain) {
      var k :| 0 <= k < |entries[1..]| && FileAtEntry(entries[1..][k], chain);
      assert entries[k + 1] == entries[1..][k];
    }
  }

  /** A chain is in the prepended list exactly when it starts with the name and its
      rest is in the list. */
  lemma PrependAllMember(n: string, chains: seq<seq<string>>, chain: seq<string>)
    ensures chain in PrependAll(n, chains) <==> |chain| >= 1 && chain[0] == n && chain[1..] in chains
  {
    var r := PrependAll(n, chains);
    if chain in r {
      var i :| 0 <= i < |r| && r[i] == chain;
      assert chain[1..] == chains[i];
    }
    if |chain| >= 1 && chain[0] == n && chain[1..] in chains {
      var i :| 0 <= i < |chains| && chains[i] == chain[1..];
      assert r[i] == chain;
    }
  }

  /** The chains the scan follows are exactly the chains that lead to a visible file. */
  lemma {:induction false} VisibleChainsExact(entries: seq<Entry>, chain: seq<string>)
    decreases entries
    ensures chain in VisibleChains(entries) <==> VisibleFileAt(entries, chain)
  {
    if |entries| > 0 {
      EntryChainsExact(entries[0], chain);
      VisibleChainsExact(entries[1..], chain);
      VisibleFileAtCons(entries, chain);
    }
  }

  lemma {:induction false} EntryChainsExact(e: Entry, chain: seq<string>)
    decreases e
    ensures chain in EntryChains(e) <==> FileAtEntry(e, chain)
  {
    if !Hidden(e.name) {
      match e
      case File(n) =>
        if |chain| == 1 && chain[0] == n {
          assert chain == [n];
        }
      case Dir(n, children) =>
        PrependAllMember(n, VisibleChains(children), chain);
        if |chain| >= 1 {
          VisibleChainsExact(children, chain[1..]);
        }
      case Other(_) =>
    }
  }

  /** `get_project_structure` lists all files recursively and only them: a path is
      listed exactly when it is the start path joined with the names leading to a
      visible file. */
  lemma ScanListsVisibleFiles(path: string, entries: seq<Entry>, p: string)
    ensures p in Scan(path, entries) <==> exists chain :: VisibleFileAt(entries, chain) && p == PathFold(path, chain)
  {
    ScanChains(path, entries);
    var chains := VisibleChains(entries);
    if p in Scan(path, entries) {
      var i :| 0 <= i < |chains| && PathsOf(path, chains)[i] == p;
      VisibleChainsExact(entries, chains[i]);
    }
    if exists chain :: VisibleFileAt(entries, chain) && p == PathFold(path, chain) {
      var chain :| VisibleFileAt(entries, chain) && p == PathFold(path, chain);
      VisibleChainsExact(entries, chain);
      var i :| 0 <= i < |chains| && chains[i] == chain;
      assert PathsOf(path, chains)[i] == p;
    }
  }

  // ---------------------------------------------------------------------------
  // get_file_structure and output_project_structure (root util.py)

  /** A node of the nested structure: a `file` or a `dir` with its `items`. */
  datatype Node =
    | FileNode(name: string)
    | DirNode(name: string, items: seq<Node>)

  /** The nested structure of a listing. Every entry that is not a regular file is
      listed as a directory; listing something that is not a directory fails, and the
      failure ends the whole call, so the result is `None`. */
  function FileStructure(entries: seq<Entry>): (r: Option<seq<Node>>)
    decreases entries
    ensures r.Some? ==> |r.value| == |entries|
  {
    if |entries| == 0 then Some([])
    else
      match (EntryStructure(entries[0]), FileStructure(entries[1..]))
      case (Some(n), Some(ns)) => Some([n] + ns)
      case _ => None
  }

  function EntryStructure(e: Entry): Option<Node>
    decreases e
  {
    match e
    case File(n) => Some(FileNode(n))
    case Dir(n, children) =>
      var items := FileStructure(children);
      if items.Some? then Some(DirNode(n, items.value)) else None
    case Other(_) => None
  }

  /** The tree holds nothing but files and directories. */
  predicate FilesAndDirs(entries: seq<Entry>)
    decreases entries
  {
    forall i :: 0 <= i < |entries| ==> EntryFilesAndDirs(entries[i])
  }

  predicate EntryFilesAndDirs(e: Entry)
    decreases e
  {
    match e
    case File(_) => true
    case Dir(_, children) => FilesAndDirs(children)
    case Other(_) => false
  }

  /** The entries a nested structure describes. */
  function Entries(ns: seq<Node>): (r: seq<Entry>)
    decreases ns
    ensures |r| == |ns|
  {
    if |ns| == 0 then [] else [EntryOf(ns[0])] + Entries(ns[1..])
  }

  function EntryOf(n: Node): Entry
    decreases n
  {
    match n
    case FileNode(name) => File(name)
    case DirNode(name, items) => Dir(name, Entries(items))
  }

  /** The nested structure exists exactly when the tree holds only files and
      directories, and then it keeps every entry — hidden ones included — with its name,
      its kind and its order. */
  lemma {:induction false} FileStructureFaithful(entries: seq<Entry>)
    decreases entries
    ensures FileStructure(entries).Some? <==> FilesAndDirs(entries)
    ensures FileStructure(entries).Some? ==> Entries(FileStructure(entries).value) == entries
  {
    if |entries| > 0 {
      EntryStructureFaithful(entries[0]);
      FileStructureFaithful(entries[1..]);
      assert FilesAndDirs(entries) <==> EntryFilesAndDirs(entries[0]) && FilesAndDirs(entries[1..]) by {
        if EntryFilesAndDirs(entries[0]) && FilesAndDirs(entries[1..]) {
          forall i | 0 <= i < |entries| ensures EntryFilesAndDirs(entries[i]) {
            if i > 0 { assert entries[i] == entries[1..][i - 1]; }
          }
        }
      }
      if FileStructure(entries).Some? {
        var ns := FileStructure(entries).value;
        assert ns[1..] == FileStructure(entries[1..]).value;
        assert [entries[0]] + entries[1..] == entries;
      }
    }
  }

  lemma {:induction false} EntryStructureFaithful(e: Entry)
    decreases e
    ensures EntryStructure(e).Some? <==> EntryFilesAndDirs(e)
    ensures EntryStructure(e).Some? ==> EntryOf(EntryStructure(e).value) == e
  {
    match e
    case File(_) =>
    case Dir(_, children) =>
      FileStructureFaithful(children);
    case Other(_) =>
  }

  /** One outline line per node: `spaces` blanks, a dash, a blank and the name. */
  function Line(spaces: nat, name: string): string {
    Repeat(' ', spaces) + "- " + name
  }

  /** `output_project_structure(files, spaces)`. */
  function Render(ns: seq<Node>, spaces: nat): (r: string)
    decreases ns
    ensures r == "" <==> |ns| == 0
  {
    if |ns| == 0 then "" else RenderNode(ns[0], spaces) + Render(ns[1..], spaces)
  }

  function RenderNode(n: Node, spaces: nat): (r: string)
    decreases n
    ensures |r| > 0
  {
    Line(spaces, n.name) + "\n" + (if n.DirNode? then Render(n.items, spaces + 2) else "")
  }

  /** Reference description of the outline: the preorder list of lines, each child
      indented two more blanks than its directory. */
  function Outline(ns: seq<Node>, spaces: nat): seq<string>
    decreases ns
  {
    if |ns| == 0 then [] else NodeOutline(ns[0], spaces) + Outline(ns[1..], spaces)
  }

  function NodeOutline(n: Node, spaces: nat): seq<string>
    decreases n
  {
    [Line(spaces, n.name)] + (if n.DirNode? then Outline(n.items, spaces + 2) else [])
  }

  /** The number of nodes of a forest, directories and files alike. */
  function Size(ns: seq<Node>): nat
    decreases ns
  {
    if |ns| == 0 then 0 else NodeSize(ns[0]) + Size(ns[1..])
  }

  function NodeSize(n: Node): nat
    decreases n
  {
    1 + (if n.DirNode? then Size(n.items) else 0)
  }

  /** Lines each followed by a newline. */
  function Terminated(lines: seq<string>): string {
    if |lines| == 0 then "" else lines[0] + "\n" + Terminated(lines[1..])
  }

  lemma {:induction false} TerminatedAppend(a: seq<string>, b: seq<string>)
    decreases |a|
    ensures Terminated(a + b) == Terminated(a) + Terminated(b)
  {
    if |a| > 0 {
      assert (a + b)[1..] == a[1..] + b;
      TerminatedAppend(a[1..], b);
    } else {
      assert a + b == b;
    }
  }

  /** The rendered text is the outline's lines, each ended by a newline. */
  lemma {:induction false} RenderIsOutline(ns: seq<Node>, spaces: nat)
    decreases ns
    ensures Render(ns, spaces) == Terminated(Outline(ns, spaces))
  {
    if |ns| > 0 {
      RenderNodeIsOutline(ns[0], spaces);
      RenderIsOutline(ns[1..], spaces);
      TerminatedAppend(NodeOutline(ns[0], spaces), Outline(ns[1..], spaces));
    }
  }

  lemma {:induction false} RenderNodeIsOutline(n: Node, spaces: nat)
    decreases n
    ensures RenderNode(n, spaces) == Terminated(NodeOutline(n, spaces))
  {
    var l := Line(spaces, n.name);
    var rest := if n.DirNode? then Outline(n.items, spaces + 2) else [];
    if n.DirNode? {
      RenderIsOutline(n.items, spaces + 2);
    }
    assert ([l] + rest)[1..] == rest;
  }

  /** The outline has one line per node. */
  lemma {:induction false} OutlineSize(ns: seq<Node>, spaces: nat)
    decreases ns
    ensures |Outline(ns, spaces)| == Size(ns)
  {
    if |ns| > 0 {
      NodeOutlineSize(ns[0], spaces);
      OutlineSize(ns[1..], spaces);
    }
  }

  lemma {:induction false} NodeOutlineSize(n: Node, spaces: nat)
    decreases n
    ensures |NodeOutline(n, spaces)| == NodeSize(n)
  {
    if n.DirNode? {
      OutlineSize(n.items, spaces + 2);
    }
  }

  /** No name anywhere in the forest contains a newline. */
  predicate SingleLineNames(ns: seq<Node>)
    decreases ns
  {
    forall i :: 0 <= i < |ns| ==> SingleLineNode(ns[i])
  }

  predicate SingleLineNode(n: Node)
    decreases n
  {
    '\n' !in n.name && (n.DirNode? ==> SingleLineNames(n.items))
  }

  lemma {:induction false} OutlineSingleLines(ns: seq<Node>, spaces: nat)
    requires SingleLineNames(ns)
    decreases ns
    ensures forall i :: 0 <= i < |Outline(ns, spaces)| ==> '\n' !in Outline(ns, spaces)[i]
  {
    if |ns| > 0 {
      assert SingleLineNode(ns[0]);
      NodeOutlineSingleLines(ns[0], spaces);
      assert SingleLineNames(ns[1..]) by {
        forall i | 0 <= i < |ns[1..]| ensures SingleLineNode(ns[1..][i]) {
          assert ns[1..][i] == ns[i + 1];
        }
      }
      OutlineSingleLines(ns[1..], spaces);
    }
  }

  lemma {:induction false} NodeOutlineSingleLines(n: Node, spaces: nat)
    requires SingleLineNode(n)
    decreases n
    ensures forall i :: 0 <= i < |NodeOutline(n, spaces)| ==> '\n' !in NodeOutline(n, spaces)[i]
  {
    var l := Line(spaces, n.name);
    assert '\n' !in l by {
      assert forall k :: 0 <= k < |l| ==> l[k] == ' ' || l[k] == '-' || l[k] == n.name[k - spaces - 2];
    }
    if n.DirNode? {
      OutlineSingleLines(n.items, spaces + 2);
    }
  }

  /** Lines without newlines, each terminated, split back into the lines and a final
      empty piece. */
  lemma {:induction false} SplitTerminated(lines: seq<string>)
    requires forall i :: 0 <= i < |lines| ==> '\n' !in lines[i]
    ensures Split(Terminated(lines), '\n') == lines + [""]
  {
    if |lines| > 0 {
      var l := lines[0];
      SplitTerminated(lines[1..]);
      assert l + "\n" + Terminated(lines[1..]) == l + ['\n'] + Terminated(lines[1..]);
      SplitAround(l, Terminated(lines[1..]), '\n');
      SplitNoSeparator(l, '\n');
      assert [l] + (lines[1..] + [""]) == lines + [""];
    }
  }

  /** For names without newlines, the rendered outline has exactly one line per node of
      the tree, in preorder, each indented by two blanks per level. */
  lemma RenderLines(ns: seq<Node>, spaces: nat)
    requires SingleLineNames(ns)
    ensures Split(Render(ns, spaces), '\n') == Outline(ns, spaces) + [""]
    ensures |Split(Render(ns, spaces), '\n')| == Size(ns) + 1
  {
    RenderIsOutline(ns, spaces);
    OutlineSingleLines(ns, spaces);
    SplitTerminated(Outline(ns, spaces));
    OutlineSize(ns, spaces);
  }

  /** Rendering distributes over concatenation of forests. */
  lemma {:induction false} RenderAppend(a: seq<Node>, b: seq<Node>, spaces: nat)
    decreases |a|
    ensures Render(a + b, spaces) == Render(a, spaces) + Render(b, spaces)
  {
    if |a| > 0 {
      assert (a + b)[0] == a[0];
      assert (a + b)[1..] == a[1..] + b;
      RenderAppend(a[1..], b, spaces);
    } else {
      assert a + b == b;
    }
  }
}

=== FILE: invariants.dfy ===
/** Invariant annotation of `generate_invariants.py`: the numbered `-- INVARIANTS --`
    block, the `updater` that puts it into a docstring, and the fold of one docstring
    edit per function entry of the service's response over the file's content. */
module Invariants {
  import opened Strings
  import opened Docstrings

  /** The fixed section header that marks an invariant block. */
  const Header: string := "-- INVARIANTS --"

  /** One entry of the service's response: a declaration and its ordered invariants. */
  datatype FunctionInfo = FunctionInfo(declaration: string, invariants: seq<string>)

  /** `f"{k}. {inv}"`. */
  function NumberedLine(k: nat, inv: string): string {
    NatToString(k) + ". " + inv
  }

  /** The invariants as numbered lines, the first numbered `k`. */
  function NumberedLines(invs: seq<string>, k: nat): seq<string> {
    if |invs| == 0 then [] else [NumberedLine(k, invs[0])] + NumberedLines(invs[1..], k + 1)
  }

  /** `formatted_invariants`: the header, a newline, and the invariants numbered from 1
      joined by newlines. */
  function FormatInvariants(invs: seq<string>): (r: string)
    ensures StartsWith(r, Header + "\n")
    ensures |invs| == 0 ==> r == Header + "\n"
  {
    Header + "\n" + Join(NumberedLines(invs, 1), "\n")
  }

  /** The `updater` closure: keep the docstring's text up to the first header (all of
      it when there is none), stripped, then a blank line, then the new block. */
  function Updater(invs: seq<string>, existing: string): (r: string)
    ensures EndsWith(r, FormatInvariants(invs))
    ensures Contains(r, Header)
    ensures existing == "" ==> r == "\n\n" + FormatInvariants(invs)
  {
    var block := FormatInvariants(invs);
    var r := if Contains(existing, Header) then Strip(BeforeFirst(existing, Header)) + "\n\n" + block
             else Strip(existing) + "\n\n" + block;
    assert r[|r| - |block|..] == block;
    assert r[|r| - |block|..][..|Header|] == Header;
    assert OccursAt(r, Header, |r| - |block|);
    r
  }

  // ---------------------------------------------------------------------------
  // The block

  /** Reads one numbered line back: its leading number and the text after ". ". */
  function ParseNumbered(line: string): Option<(nat, string)> {
    var d := LeadingDigits(line);
    if d > 0 && d + 2 <= |line| && line[d..d + 2] == ". " then
      Some((ParseNat(line[..d]), line[d + 2..]))
    else None
  }

  function LeadingDigits(s: string): (n: nat)
    ensures n <= |s|
    ensures forall i :: 0 <= i < n ==> IsDigit(s[i])
    ensures n < |s| ==> !IsDigit(s[n])
  {
    if |s| > 0 && IsDigit(s[0]) then 1 + LeadingDigits(s[1..]) else 0
  }

  /** Reads numbered lines back, expecting them numbered consecutively from `k`. */
  function ParseNumberedLines(lines: seq<string>, k: nat): Option<seq<string>> {
    if |lines| == 0 then Some([])
    else
      var first := ParseNumbered(lines[0]);
      var rest := ParseNumberedLines(lines[1..], k + 1);
      if first.Some? && first.value.0 == k && rest.Some? then Some([first.value.1] + rest.value)
      else None
  }

  /** Reads an invariant block back into its invariants. */
  function ParseInvariants(block: string): Option<seq<string>> {
    var lines := Split(block, '\n');
    if lines[0] != Header then None
    else if lines[1..] == [""] then Some([])
    else ParseNumberedLines(lines[1..], 1)
  }

  lemma {:induction false} LeadingDigitsOfNumbered(k: nat, inv: string)
    ensures LeadingDigits(NumberedLine(k, inv)) == |NatToString(k)|
  {
    var ds := NatToString(k);
    LeadingDigitsPrefix(ds, ". " + inv);
    assert NumberedLine(k, inv) == ds + (". " + inv);
  }

  lemma {:induction false} LeadingDigitsPrefix(ds: string, rest: string)
    requires forall i :: 0 <= i < |ds| ==> IsDigit(ds[i])
    requires |rest| > 0 && !IsDigit(rest[0])
    ensures LeadingDigits(ds + rest) == |ds|
  {
    if |ds| > 0 {
      assert (ds + rest)[1..] == ds[1..] + rest;
      LeadingDigitsPrefix(ds[1..], rest);
    } else {
      assert ds + rest == rest;
    }
  }

  /** A numbered line reads back as its number and its text. */
  lemma ParseNumberedLine(k: nat, inv: string)
    ensures ParseNumbered(NumberedLine(k, inv)) == Some((k, inv))
  {
    var ds := NatToString(k);
    var line := NumberedLine(k, inv);
    LeadingDigitsOfNumbered(k, inv);
    assert line[..|ds|] == ds;
    assert line[|ds|..|ds| + 2] == ". ";
    assert line[|ds| + 2..] == inv;
    ParseNatToString(k);
  }

  lemma {:induction false} ParseNumberedLinesRoundTrip(invs: seq<string>, k: nat)
    ensures ParseNumberedLines(NumberedLines(invs, k), k) == Some(invs)
  {
    if |invs| > 0 {
      ParseNumberedLine(k, invs[0]);
      var lines := NumberedLines(invs, k);
      assert lines[1..] == NumberedLines(invs[1..], k + 1);
      ParseNumberedLinesRoundTrip(invs[1..], k + 1);
      assert [invs[0]] + invs[1..] == invs;
    }
  }

  lemma {:induction false} NumberedLinesHaveNoNewline(invs: seq<string>, k: nat)
    requires forall i :: 0 <= i < |invs| ==> '\n' !in invs[i]
    ensures |NumberedLines(invs, k)| == |invs|
    ensures forall i :: 0 <= i < |invs| ==> '\n' !in NumberedLines(invs, k)[i]
  {
    if |invs| > 0 {
      NumberedLinesHaveNoNewline(invs[1..], k + 1);
      var ds := NatToString(k);
      assert forall i :: 0 <= i < |ds| ==> IsDigit(ds[i]);
      assert '\n' !in ds;
    }
  }

  /** The block is the header line followed by exactly one line per invariant, "k. inv"
      numbered from 1 in input order (an empty list leaves one empty line after the
      header), when no invariant spans several lines. */
  lemma FormatInvariantsLines(invs: seq<string>)
    requires forall i :: 0 <= i < |invs| ==> '\n' !in invs[i]
    ensures Split(FormatInvariants(invs), '\n')
         == [Header] + (if |invs| == 0 then [""] else NumberedLines(invs, 1))
  {
    var lines := NumberedLines(invs, 1);
    var body := Join(lines, "\n");
    HeaderLineSplits(body);
    if |invs| > 0 {
      NumberedLinesHaveNoNewline(invs, 1);
      SplitJoin(lines, '\n');
    }
  }

  lemma HeaderLineSplits(body: string)
    ensures Split(Header + "\n" + body, '\n') == [Header] + Split(body, '\n')
  {
    assert Header + "\n" + body == Header + ['\n'] + body;
    SplitAround(Header, body, '\n');
    HeaderHasNoNewline();
    SplitNoSeparator(Header, '\n');
  }

  /** Formatting loses nothing: the block reads back as the invariants it was made from. */
  lemma FormatInvariantsRoundTrip(invs: seq<string>)
    requires forall i :: 0 <= i < |invs| ==> '\n' !in invs[i]
    ensures ParseInvariants(FormatInvariants(invs)) == Some(invs)
  {
    FormatInvariantsLines(invs);
    if |invs| > 0 {
      ParseNumberedLinesRoundTrip(invs, 1);
      var first := NumberedLines(invs, 1)[0];
      assert first == NumberedLine(1, invs[0]);
      assert first[..1] == "1";
      assert NumberedLines(invs, 1) != [""];
    }
  }

  // ---------------------------------------------------------------------------
  // The updater

  lemma HeaderHasNoNewline()
    ensures forall i :: 0 <= i < |Header| ==> Header[i] != '\n'
  {
  }

  /** In "p\n\n" followed by a block that starts with the header, the first header is the
      block's own, when `p` holds none. */
  lemma FirstHeaderIsBlocks(p: string, block: string)
    requires !Contains(p, Header)
    requires StartsWith(block, Header)
    ensures IndexOf(p + "\n\n" + block, Header) == Some(|p| + 2)
  {
    var s := p + "\n\n" + block;
    assert s[|p| + 2..][..|Header|] == Header;
    assert OccursAt(s, Header, |p| + 2);
    forall j | 0 <= j < |p| + 2
      ensures !OccursAt(s, Header, j)
    {
      NoHeaderBeforeBreak(p, block, j);
    }
    FirstOccurrence(s, Header, 0, |p| + 2);
  }

  /** No header starts inside a header-free text or across the blank line after it. */
  lemma NoHeaderBeforeBreak(p: string, block: string, j: nat)
    requires !Contains(p, Header)
    requires j < |p| + 2
    ensures !OccursAt(p + "\n\n" + block, Header, j)
  {
    var s := p + "\n\n" + block;
    if j + |Header| <= |p| {
      assert s[j..j + |Header|] == p[j..j + |Header|];
      assert !OccursAt(p, Header, j);
    } else if j + |Header| <= |s| {
      var m := if j <= |p| then |p| else j;
      assert s[m] == '\n';
      HeaderHasNoNewline();
      assert s[j..j + |Header|][m - j] == '\n';
    }
  }

  /** What the updater keeps of the old docstring: the text before its first header (or
      all of it), stripped. That text holds no header and no surrounding whitespace. */
  lemma UpdaterKeeps(invs: seq<string>, existing: string)
    ensures var p := Strip(BeforeFirst(existing, Header));
            && Updater(invs, existing) == p + "\n\n" + FormatInvariants(invs)
            && IsStripped(p)
            && !Contains(p, Header)
  {
    var b := BeforeFirst(existing, Header);
    UpdaterUnified(invs, existing);
    StrippedHasNoHeader(b);
  }

  lemma UpdaterUnified(invs: seq<string>, existing: string)
    ensures Updater(invs, existing) == Strip(BeforeFirst(existing, Header)) + "\n\n" + FormatInvariants(invs)
  {
  }

  lemma StrippedHasNoHeader(b: string)
    requires !Contains(b, Header)
    ensures !Contains(Strip(b), Header)
  {
    var r := Strip(b);
    var a := StripStart(b);
    assert r == b[a..a + |r|];
    NotContainsSlice(b, Header, a, a + |r|);
  }

  /** When the docstring holds a header, what survives of it is exactly its text before
      the first header, stripped; nothing from the first header onward. */
  lemma UpdaterDropsFromFirstHeader(invs: seq<string>, existing: string, i: nat)
    requires IndexOf(existing, Header) == Some(i)
    ensures Updater(invs, existing) == Strip(existing[..i]) + "\n\n" + FormatInvariants(invs)
  {
    assert BeforeFirst(existing, Header) == existing[..i];
  }

  /** Regeneration supersedes: running the updater for `invs2` over a docstring that the
      updater for `invs1` produced gives what the `invs2` updater gives on the original,
      so no line of the old block survives. */
  lemma UpdaterSupersedes(invs1: seq<string>, invs2: seq<string>, existing: string)
    ensures Updater(invs2, Updater(invs1, existing)) == Updater(invs2, existing)
  {
    UpdaterKeeps(invs1, existing);
    var p := Strip(BeforeFirst(existing, Header));
    var once := Updater(invs1, existing);
    FirstHeaderIsBlocks(p, FormatInvariants(invs1));
    assert BeforeFirst(once, Header) == p + "\n\n";
    StripTrailingSpace(p, "\n\n");
    UpdaterKeeps(invs2, once);
    UpdaterKeeps(invs2, existing);
  }

  /** The updater is idempotent. */
  lemma UpdaterIdempotent(invs: seq<string>, existing: string)
    ensures Updater(invs, Updater(invs, existing)) == Updater(invs, existing)
  {
    UpdaterSupersedes(invs, invs, existing);
  }

  // ---------------------------------------------------------------------------
  // The fold over the response

  /** The docstring edit for one response entry. */
  function Annotate(content: Module, info: FunctionInfo): Module {
    UpdateDocstring(content, info.declaration, d => Updater(info.invariants, d))
  }

  /** The loop over `response.get('functions', [])`: each entry's edit applied in turn to
      the same threaded content; the result is what gets written back, once. */
  function InsertInvariants(content: Module, functions: seq<FunctionInfo>): Module
    decreases |functions|
  {
    if |functions| == 0 then content
    else InsertInvariants(Annotate(content, functions[0]), functions[1..])
  }

  /** `generate_invariants` on already-read content and an already-parsed response; a
      response without `functions` leaves the content as it is. */
  function GenerateInvariants(content: Module, functions: Option<seq<FunctionInfo>>): (r: Module)
    ensures functions.None? || functions == Some([]) ==> r == content
  {
    InsertInvariants(content, if functions.Some? then functions.value else [])
  }

  /** Entries are applied in response order: the fold over a concatenation is the fold
      over the second part started from the result of the first. */
  lemma {:induction false} InsertInvariantsSequential(content: Module, a: seq<FunctionInfo>, b: seq<FunctionInfo>)
    decreases a
    ensures InsertInvariants(content, a + b) == InsertInvariants(InsertInvariants(content, a), b)
  {
    if |a| == 0 {
      assert a + b == b;
    } else {
      assert (a + b)[1..] == a[1..] + b;
      InsertInvariantsSequential(Annotate(content, a[0]), a[1..], b);
    }
  }

  /** The updater's result never cleans to an empty docstring: the header it contains
      is not whitespace. */
  lemma UpdaterNotBlank(invs: seq<string>, d: string)
    ensures !CleansToEmpty(Updater(invs, d))
  {
    var r := Updater(invs, d);
    var k := IndexOf(r, Header).value;
    assert r[k..k + |Header|][0] == Header[0] == '-';
    assert !IsSpace(r[k]);
  }

  /** The updater never returns a docstring that reads as absent, and it absorbs any
      earlier block. */
  lemma UpdaterFacts(invs1: seq<string>, invs2: seq<string>)
    ensures forall d :: !CleansToEmpty(Updater(invs1, d))
    ensures forall d :: Updater(invs2, Updater(invs1, d)) == Updater(invs2, d)
  {
    forall d
      ensures !CleansToEmpty(Updater(invs1, d))
      ensures Updater(invs2, Updater(invs1, d)) == Updater(invs2, d)
    {
      UpdaterNotBlank(invs1, d);
      UpdaterSupersedes(invs1, invs2, d);
    }
  }

  /** An entry for a function that already received invariants replaces them: the two
      consecutive entries act as the second alone. */
  lemma RegenerationReplaces(content: Module, name: string, invs1: seq<string>, invs2: seq<string>)
    ensures InsertInvariants(content, [FunctionInfo(name, invs1), FunctionInfo(name, invs2)])
         == InsertInvariants(content, [FunctionInfo(name, invs2)])
  {
    var u1: string -> string := d => Updater(invs1, d);
    var u2: string -> string := d => Updater(invs2, d);
    UpdaterFacts(invs1, invs2);
    assert forall d :: !CleansToEmpty(u1(d));
    assert forall d :: u2(u1(d)) == u2(d);
    EditSupersedes(content, name, u1, u2);
    assert [FunctionInfo(name, invs1), FunctionInfo(name, invs2)][1..] == [FunctionInfo(name, invs2)];
  }

  /** Annotating a file twice with the same response entry is annotating it once. */
  lemma AnnotateIdempotent(content: Module, info: FunctionInfo)
    ensures Annotate(Annotate(content, info), info) == Annotate(content, info)
  {
    RegenerationReplaces(content, info.declaration, info.invariants, info.invariants);
    assert [info, info][1..] == [info];
    assert [info][1..] == [];
    assert InsertInvariants(content, [info]) == Annotate(content, info);
    assert InsertInvariants(content, [info, info]) == InsertInvariants(Annotate(content, info), [info]);
  }

  /** An entry whose declaration names no definition of the current content edits
      nothing: the declaration is compared verbatim with function names. */
  lemma UnknownDeclarationSkipped(content: Module, info: FunctionInfo, rest: seq<FunctionInfo>)
    requires info.declaration !in Names(content)
    ensures InsertInvariants(content, [info] + rest) == InsertInvariants(content, rest)
  {
    MissLeavesModuleUnchanged(content, info.declaration, d => Updater(info.invariants, d));
    assert ([info] + rest)[1..] == rest;
  }

  /** A Python identifier (ASCII letters, digits and `_`, or any non-ASCII character;
      not starting with a digit). Definition names are identifiers. */
  predicate IsIdentifier(s: string) {
    && |s| > 0
    && !IsDigit(s[0])
    && forall i :: 0 <= i < |s| ==> s[i] == '_' || IsDigit(s[i]) || 'a' <= s[i] <= 'z' || 'A' <= s[i] <= 'Z' || s[i] as int >= 128
  }

  /** A declaration that is not a bare name, such as a whole `def f(x):` line, never
      matches a definition, so its entry edits nothing. */
  lemma DeclarationLineEditsNothing(content: Module, info: FunctionInfo)
    requires forall i :: 0 <= i < |Names(content)| ==> IsIdentifier(Names(content)[i])
    requires !IsIdentifier(info.declaration)
    ensures Annotate(content, info) == content
  {
    MissLeavesModuleUnchanged(content, info.declaration, d => Updater(info.invariants, d));
  }

  /** After one entry, every definition with that name carries a docstring that ends with
      the entry's block, and every other definition keeps its docstring. */
  lemma AnnotateDocs(content: Module, info: FunctionInfo, k: nat)
    requires k < |Docs(content)|
    ensures |Docs(Annotate(content, info))| == |Docs(content)|
    ensures var after := Docs(Annotate(content, info))[k];
            var before := Docs(content)[k];
            && after.0 == before.0
            && (before.0 == info.declaration ==>
                  after.1.Some? && EndsWith(after.1.value, FormatInvariants(info.invariants)))
            && (before.0 != info.declaration ==> after.1 == before.1)
  {
    var u: string -> string := d => Updater(info.invariants, d);
    EditDocs(content, info.declaration, u);
    ExpectedDocsIndex(Docs(content), info.declaration, u, k);
  }

  lemma {:induction false} ExpectedDocsIndex(ds: seq<(string, Option<string>)>, target: string, updater: string -> string, k: nat)
    requires k < |ds|
    ensures ExpectedDocs(ds, target, updater)[k] == ExpectedDoc(ds[k], target, updater)
  {
    if k > 0 {
      ExpectedDocsIndex(ds[1..], target, updater, k - 1);
    }
  }
}

=== FILE: orchestrator.dfy ===
/** Test generation over the scanned project (`generate_tests`): which source files get
    a test file, where it is written, and the fork/join of the generation jobs. The
    threads are modelled by the ordered log of what the main thread does. */
module Orchestrator {
  import opened Strings
  import opened Paths
  import opened FsTree

  /** A scanned path is given a test file when it is a Python file outside `./tests/`. */
  predicate Eligible(path: string) {
    !StartsWith(path, "./tests/") && EndsWith(path, ".py")
  }

  /** Reference list of the sources that get a test file, in scan order. */
  function EligiblePaths(paths: seq<string>): (r: seq<string>)
    ensures |r| <= |paths|
    ensures forall i :: 0 <= i < |r| ==> Eligible(r[i]) && r[i] in paths
  {
    if |paths| == 0 then []
    else
      var rest := EligiblePaths(paths[1..]);
      assert forall i :: 0 <= i < |rest| ==> rest[i] in paths;
      if Eligible(paths[0]) then [paths[0]] + rest else rest
  }

  /** Every eligible scanned path is kept. */
  lemma {:induction false} EligiblePathsComplete(paths: seq<string>, p: string)
    requires p in paths && Eligible(p)
    ensures p in EligiblePaths(paths)
  {
    if paths[0] != p {
      EligiblePathsComplete(paths[1..], p);
    }
  }

  lemma {:induction false} EligiblePathsAppend(a: seq<string>, b: seq<string>)
    decreases |a|
    ensures EligiblePaths(a + b) == EligiblePaths(a) + EligiblePaths(b)
  {
    if |a| == 0 {
      assert a + b == b;
    } else {
      assert (a + b)[0] == a[0];
      assert (a + b)[1..] == a[1..] + b;
      EligiblePathsAppend(a[1..], b);
    }
  }

  /** One generation job: the source it reads and the test file it writes. */
  datatype Job = Job(source: string, testPath: string)

  /** The directory `generate_tests` creates for a source before starting its job. */
  function TestDir(path: string): string {
    PathJoin("tests", Dirname(path))
  }

  /** The main thread's first phase for one job: create its test directory
      (`os.makedirs(dir, exist_ok=True)`), then start its thread. */
  datatype Spawn = Spawn(dir: string, job: nat)

  /** `generate_tests`: for every eligible scanned path, in order, create its test
      directory and start its job; afterwards join every started job, in start order. */
  method GenerateTests(paths: seq<string>) returns (jobs: seq<Job>, spawns: seq<Spawn>, joins: seq<nat>)
    ensures |jobs| == |EligiblePaths(paths)|
    ensures forall i :: 0 <= i < |jobs| ==>
      jobs[i] == Job(EligiblePaths(paths)[i], TestPath(EligiblePaths(paths)[i]))
    ensures |spawns| == |jobs| && forall i :: 0 <= i < |spawns| ==> spawns[i] == Spawn(TestDir(jobs[i].source), i)
    ensures |joins| == |jobs| && forall i :: 0 <= i < |joins| ==> joins[i] == i
  {
    jobs, spawns := SpawnJobs(paths, TestPath, TestDir);
    joins := JoinJobs(|jobs|);
  }

  /** The spawning loop, for any choice of test path and test directory. */
  method SpawnJobs(paths: seq<string>, testPath: string -> string, testDir: string -> string)
    returns (jobs: seq<Job>, spawns: seq<Spawn>)
    ensures |jobs| == |EligiblePaths(paths)|
    ensures forall i :: 0 <= i < |jobs| ==>
      jobs[i] == Job(EligiblePaths(paths)[i], testPath(EligiblePaths(paths)[i]))
    ensures |spawns| == |jobs| && forall i :: 0 <= i < |spawns| ==> spawns[i] == Spawn(testDir(jobs[i].source), i)
  {
    jobs := [];
    spawns := [];
    for k := 0 to |paths|
      invariant |jobs| == |EligiblePaths(paths[..k])|
      invariant forall i :: 0 <= i < |jobs| ==>
        jobs[i] == Job(EligiblePaths(paths[..k])[i], testPath(EligiblePaths(paths[..k])[i]))
      invariant |spawns| == |jobs| && forall i :: 0 <= i < |spawns| ==> spawns[i] == Spawn(testDir(jobs[i].source), i)
    {
      var path := paths[k];
      EligiblePathsAppend(paths[..k], [path]);
      assert paths[..k + 1] == paths[..k] + [path];
      if Eligible(path) {
        spawns := spawns + [Spawn(testDir(path), |jobs|)];
        jobs := jobs + [Job(path, testPath(path))];
      } else {
        assert EligiblePaths([path]) == [];
      }
    }
    assert paths[..|paths|] == paths;
  }

  /** The joining loop: every started job is waited for, in start order. */
  method JoinJobs(n: nat) returns (joins: seq<nat>)
    ensures |joins| == n && forall i :: 0 <= i < n ==> joins[i] == i
  {
    joins := [];
    for i := 0 to n
      invariant |joins| == i && forall k :: 0 <= k < i ==> joins[k] == k
    {
      joins := joins + [i];
    }
  }

  /** Every path the scanner reports from `.` is a `./`-path of ordinary names. */
  lemma ScannedPathShape(entries: seq<Entry>, p: string)
    requires WellNamed(entries) && p in Scan(".", entries)
    ensures exists cs :: |cs| >= 1 && OrdinaryNames(cs) && p == "./" + Join(cs, "/")
  {
    ScanFromDot(entries);
    var i :| 0 <= i < |Scan(".", entries)| && Scan(".", entries)[i] == p;
    var cs := VisibleChains(entries)[i];
    assert |cs| >= 1 && OrdinaryNames(cs) && p == "./" + Join(cs, "/");
  }

  /** For the scanned project, every job writes the mirror image of its source below
      `tests/`, keeping the Python file name, and no two jobs write the same file. */
  lemma ScannedTestPaths(entries: seq<Entry>)
    requires WellNamed(entries)
    ensures forall p :: p in EligiblePaths(Scan(".", entries)) ==>
      StartsWith(p, "./") && TestPath(p) == "tests/" + p[2..] && EndsWith(TestPath(p), ".py")
    ensures forall p, q :: p in EligiblePaths(Scan(".", entries)) && q in EligiblePaths(Scan(".", entries)) && p != q ==>
      TestPath(p) != TestPath(q)
  {
    var eligible := EligiblePaths(Scan(".", entries));
    forall p | p in eligible
      ensures StartsWith(p, "./") && TestPath(p) == "tests/" + p[2..] && EndsWith(TestPath(p), ".py")
    {
      MirroredTestPath(entries, p);
    }
    forall p, q | p in eligible && q in eligible && p != q
      ensures TestPath(p) != TestPath(q)
    {
      MirroredTestPath(entries, p);
      MirroredTestPath(entries, q);
      MirrorsDistinct(TestPath, p, q);
    }
  }

  lemma MirroredTestPath(entries: seq<Entry>, p: string)
    requires WellNamed(entries) && p in EligiblePaths(Scan(".", entries))
    ensures StartsWith(p, "./") && TestPath(p) == "tests/" + p[2..] && EndsWith(TestPath(p), ".py")
  {
    ScannedPathShape(entries, p);
    var cs :| |cs| >= 1 && OrdinaryNames(cs) && p == "./" + Join(cs, "/");
    TestPathMirrors(cs);
    MirrorShape(TestPath, p, Join(cs, "/"));
  }

  /** The directory `generate_tests` creates before starting a job is, once
      normalised, the directory of the file the job writes. */
  lemma CreatedDirHoldsTestFile(entries: seq<Entry>, p: string)
    requires WellNamed(entries) && p in EligiblePaths(Scan(".", entries))
    ensures NormPath(TestDir(p)) == Dirname(TestPath(p))
  {
    ScannedPathShape(entries, p);
    var cs :| |cs| >= 1 && OrdinaryNames(cs) && p == "./" + Join(cs, "/");
    TestDirMirrors(cs);
  }

  /** Rewriting a mirrored `./`-path in terms of the path itself. */
  lemma MirrorShape(mirror: string -> string, p: string, j: string)
    requires p == "./" + j && mirror("./" + j) == "tests/" + j && EndsWith(p, ".py")
    ensures StartsWith(p, "./") && mirror(p) == "tests/" + p[2..] && EndsWith(mirror(p), ".py")
  {
    assert p[2..] == j;
    assert p[1] == '/' && p[|p| - 2] == 'p' && p[|p| - 3] == '.';
    assert |j| >= 3;
    var t := "tests/" + j;
    assert t[|t| - 3..] == j[|j| - 3..] == p[|p| - 3..];
  }

  /** Mirroring `./`-paths below `tests/` keeps distinct paths distinct. */
  lemma MirrorsDistinct(mirror: string -> string, p: string, q: string)
    requires StartsWith(p, "./") && mirror(p) == "tests/" + p[2..]
    requires StartsWith(q, "./") && mirror(q) == "tests/" + q[2..]
    requires p != q
    ensures mirror(p) != mirror(q)
  {
    assert p == "./" + p[2..] && q == "./" + q[2..];
    assert ("tests/" + p[2..])[6..] == p[2..];
    assert ("tests/" + q[2..])[6..] == q[2..];
  }
}

=== FILE: paths.dfy ===
/** POSIX path-string operations with the meaning of Python's `posixpath`: `join`,
    `dirname`, `basename` and `normpath`. Paths are `/`-separated strings. */
module Paths {
  import opened Strings

  /** `os.path.join(a, b)`. */
  function PathJoin(a: string, b: string): string {
    if StartsWith(b, "/") then b
    else if a == "" || EndsWith(a, "/") then a + b
    else a + "/" + b
  }

  /** `s.rfind(c)`: the last index of `c` in `s`, or -1. */
  function LastIndexOf(s: string, c: char): (r: int)
    ensures -1 <= r < |s|
    ensures r >= 0 ==> s[r] == c
    ensures forall j :: r < j < |s| ==> s[j] != c
  {
    if |s| == 0 then -1
    else if s[|s| - 1] == c then |s| - 1
    else LastIndexOf(s[..|s| - 1], c)
  }

  /** `os.path.basename(p)`: the text after the last slash. */
  function Basename(p: string): (r: string)
    ensures forall i :: 0 <= i < |r| ==> r[i] != '/'
    ensures |r| <= |p| && r == p[|p| - |r|..]
  {
    var k := LastIndexOf(p, '/') + 1;
    var r := p[k..];
    assert forall j :: 0 <= j < |r| ==> r[j] == p[k + j];
    r
  }

  /** `s.rstrip('/')`. */
  function StripTrailingSlashes(s: string): (r: string)
    ensures r <= s
    ensures r == [] || r[|r| - 1] != '/'
    ensures forall i :: |r| <= i < |s| ==> s[i] == '/'
  {
    if |s| > 0 && s[|s| - 1] == '/' then StripTrailingSlashes(s[..|s| - 1]) else s
  }

  predicate AllSlashes(s: string) {
    forall i :: 0 <= i < |s| ==> s[i] == '/'
  }

  /** `os.path.dirname(p)`: the text up to the last slash, without trailing slashes
      unless it is nothing but slashes. */
  function Dirname(p: string): string {
    var head := p[..LastIndexOf(p, '/') + 1];
    if head != "" && !AllSlashes(head) then StripTrailingSlashes(head) else head
  }

  /** The number of leading slashes `normpath` keeps: two exactly when there are exactly
      two, otherwise one for an absolute path and none for a relative one. */
  function InitialSlashes(p: string): nat {
    if !StartsWith(p, "/") then 0
    else if StartsWith(p, "//") && !StartsWith(p, "///") then 2
    else 1
  }

  /** The component loop of `normpath`: drop empty and `.` components, let `..` cancel
      the previous ordinary component. */
  function NormComponents(comps: seq<string>, acc: seq<string>, absolute: bool): seq<string>
    decreases |comps|
  {
    if |comps| == 0 then acc
    else
      var c := comps[0];
      if c == "" || c == "." then NormComponents(comps[1..], acc, absolute)
      else if c != ".." || (!absolute && |acc| == 0) || (|acc| > 0 && acc[|acc| - 1] == "..") then
        NormComponents(comps[1..], acc + [c], absolute)
      else if |acc| > 0 then NormComponents(comps[1..], acc[..|acc| - 1], absolute)
      else NormComponents(comps[1..], acc, absolute)
  }

  function Repeat(c: char, n: nat): (r: string)
    ensures |r| == n && forall i :: 0 <= i < n ==> r[i] == c
  {
    if n == 0 then "" else [c] + Repeat(c, n - 1)
  }

  /** `os.path.normpath(p)`. */
  function NormPath(p: string): string {
    if p == "" then "."
    else
      var slashes := InitialSlashes(p);
      var comps := NormComponents(Split(p, '/'), [], slashes > 0);
      var r := Repeat('/', slashes) + Join(comps, "/");
      if r == "" then "." else r
  }

  /** A name the project scanner can report: non-empty, without a slash, and not hidden
      (so in particular neither `.` nor `..`). */
  predicate OrdinaryName(n: string) {
    |n| > 0 && '/' !in n && n[0] != '.'
  }

  predicate OrdinaryNames(cs: seq<string>) {
    forall i :: 0 <= i < |cs| ==> OrdinaryName(cs[i])
  }

  lemma {:induction false} NormOrdinary(comps: seq<string>, acc: seq<string>, absolute: bool)
    requires OrdinaryNames(comps)
    decreases |comps|
    ensures NormComponents(comps, acc, absolute) == acc + comps
  {
    if |comps| > 0 {
      NormOrdinary(comps[1..], acc + [comps[0]], absolute);
      assert acc + [comps[0]] + comps[1..] == acc + comps;
    }
  }

  lemma {:induction false} JoinEndsWithLast(cs: seq<string>, sep: string)
    requires |cs| >= 1
    ensures EndsWith(Join(cs, sep), cs[|cs| - 1])
  {
    if |cs| > 1 {
      JoinEndsWithLast(cs[1..], sep);
    }
  }

  lemma {:induction false} JoinOrdinaryNoLeadingOrTrailingSlash(cs: seq<string>)
    requires |cs| >= 1 && OrdinaryNames(cs)
    ensures var j := Join(cs, "/"); |j| > 0 && j[0] != '/' && j[|j| - 1] != '/'
  {
    var j := Join(cs, "/");
    JoinEndsWithLast(cs, "/");
    var last := cs[|cs| - 1];
    assert j[|j| - |last|..] == last;
    assert j[|j| - 1] == last[|last| - 1];
    assert j[0] == cs[0][0];
  }

  lemma {:induction false} LastSlashBeforeName(a: string, c: string)
    requires '/' !in c
    ensures LastIndexOf(a + "/" + c, '/') == |a|
  {
    var s := a + "/" + c;
    if |c| > 0 {
      var c' := c[..|c| - 1];
      assert s[|s| - 1] == c[|c| - 1];
      assert s[..|s| - 1] == a + "/" + c';
      LastSlashBeforeName(a, c');
    }
  }

  /** Where `generate_tests` writes the tests for `path`: the relative form of
      `tests/<dirname(path)>` joined with the unchanged basename. The relative form of a
      path below the working directory is its normal form. */
  function TestPath(path: string): string {
    MirrorBelow("tests", path)
  }

  /** The test-path computation for an arbitrary test root. */
  function MirrorBelow(root: string, path: string): string {
    PathJoin(NormPath(PathJoin(root, Dirname(path))), Basename(path))
  }

  /** Splitting a path into the part before its last slash and the name after it. */
  lemma {:induction false} DirnameBasename(d: string, c: string)
    requires '/' !in c
    requires |d| > 0 && d[|d| - 1] != '/'
    ensures Basename(d + "/" + c) == c
    ensures Dirname(d + "/" + c) == d
  {
    var p := d + "/" + c;
    LastSlashBeforeName(d, c);
    assert p[|d| + 1..] == c;
    var head := p[..|d| + 1];
    assert head == d + "/";
    assert head[|d| - 1] != '/';
    assert StripTrailingSlashes(head) == d;
  }

  lemma NormPathRelative(p: string)
    requires p != "" && p[0] != '/'
    ensures var r := Join(NormComponents(Split(p, '/'), [], false), "/");
            NormPath(p) == if r == "" then "." else r
  {
    assert InitialSlashes(p) == 0;
    assert Repeat('/', 0) == "";
  }

  /** Joining an ordinary name with a path that does not start with a slash. */
  lemma JoinNameRelative(root: string, q: string)
    requires OrdinaryName(root) && |q| > 0 && q[0] != '/'
    ensures PathJoin(root, q) == root + "/" + q
  {
    assert !StartsWith(q, "/");
    assert root[|root| - 1] != '/';
  }

  /** `normpath(root + "/.")` is the root itself. */
  lemma NormRootDot(root: string)
    requires OrdinaryName(root)
    ensures NormPath(PathJoin(root, ".")) == root
  {
    JoinNameRelative(root, ".");
    var p := root + "/" + ".";
    assert p == root + ['/'] + ".";
    SplitAround(root, ".", '/');
    SplitNoSeparator(root, '/');
    SplitNoSeparator(".", '/');
    NormPathRelative(p);
    NormNameDot(root, []);
    assert [root, "."] + [] == [root, "."];
    assert Join([root], "/") == root;
  }

  lemma SplitRootDotDir(root: string, j: string, init: seq<string>)
    requires OrdinaryName(root)
    requires |init| >= 1 && OrdinaryNames(init)
    requires j == Join(init, "/")
    ensures Split(root + "/" + ("./" + j), '/') == [root, "."] + init
  {
    var dj := "." + ['/'] + j;
    assert root + "/" + ("./" + j) == root + ['/'] + dj;
    SplitAround(root, dj, '/');
    SplitAround(".", j, '/');
    SplitNoSeparator(root, '/');
    SplitNoSeparator(".", '/');
    SplitJoin(init, '/');
    assert [root] + (["."] + init) == [root, "."] + init;
  }

  /** An ordinary name followed by `.` and ordinary names normalises to the names. */
  lemma NormNameDot(a: string, init: seq<string>)
    requires OrdinaryName(a) && OrdinaryNames(init)
    ensures NormComponents([a, "."] + init, [], false) == [a] + init
  {
    var comps := [a, "."] + init;
    assert a != "" && a != "." && a != ".." by {
      assert "."[0] == '.' && ".."[0] == '.';
    }
    assert comps[0] == a && comps[1..] == ["."] + init;
    assert [] + [a] == [a];
    assert NormComponents(comps, [], false) == NormComponents(["."] + init, [a], false);
    assert (["."] + init)[0] == "." && (["."] + init)[1..] == init;
    NormOrdinary(init, [a], false);
  }

  /** `normpath` of a relative path whose components normalise to a non-empty list. */
  lemma NormPathOf(q: string, comps: seq<string>, out: seq<string>)
    requires q != "" && q[0] != '/'
    requires Split(q, '/') == comps && NormComponents(comps, [], false) == out
    requires Join(out, "/") != ""
    ensures NormPath(q) == Join(out, "/")
  {
    assert InitialSlashes(q) == 0;
    assert Repeat('/', 0) == "";
  }

  lemma JoinUnder(root: string, x: string, q: string)
    requires OrdinaryName(root) && |x| > 0 && x[0] != '/'
    requires q == root + "/" + x
    ensures PathJoin(root, x) == q
  {
    JoinNameRelative(root, x);
  }

  lemma NormRootDir(root: string, init: seq<string>)
    requires OrdinaryName(root)
    requires |init| >= 1 && OrdinaryNames(init)
    ensures NormPath(PathJoin(root, "./" + Join(init, "/"))) == root + "/" + Join(init, "/")
  {
    var j := Join(init, "/");
    var q := root + "/" + ("./" + j);
    JoinUnder(root, "./" + j, q);
    SplitRootDotDir(root, j, init);
    NormNameDot(root, init);
    JoinCons(root, init, "/");
    NormPathOf(q, [root, "."] + init, [root] + init);
  }

  /** The test-path computation assembled from its three parts. */
  lemma MirrorOf(root: string, p: string, d: string, c: string, t: string)
    requires Dirname(p) == d && Basename(p) == c && NormPath(PathJoin(root, d)) == t
    ensures MirrorBelow(root, p) == PathJoin(t, c)
  {
  }

  lemma Regroup(a: string, b: string, c: string)
    ensures a + (b + "/" + c) == a + b + "/" + c
  {
  }

  lemma EndsWithoutSlash(a: string, b: string)
    requires |b| > 0 && b[|b| - 1] != '/'
    ensures |a + b| > 0 && (a + b)[|a + b| - 1] != '/'
  {
    assert (a + b)[|a + b| - 1] == b[|b| - 1];
  }

  /** Joining a name onto a path that does not end in a slash. */
  lemma JoinAfter(t: string, c: string)
    requires |t| > 0 && t[|t| - 1] != '/' && OrdinaryName(c)
    ensures PathJoin(t, c) == t + "/" + c
  {
    assert !StartsWith(c, "/");
  }

  lemma DotSlash()
    ensures "." + "/" == "./"
  {
  }

  lemma MirrorTopLevel(root: string, c: string)
    requires OrdinaryName(root) && OrdinaryName(c)
    ensures MirrorBelow(root, "./" + c) == root + "/" + c
  {
    DotSlash();
    DirnameBasename(".", c);
    NormRootDot(root);
    JoinNameRelative(root, c);
    MirrorOf(root, "./" + c, ".", c, root);
  }

  lemma MirrorNested(root: string, init: seq<string>, c: string, j: string)
    requires OrdinaryName(root)
    requires |init| >= 1 && OrdinaryNames(init) && OrdinaryName(c)
    requires j == Join(init, "/") + "/" + c
    ensures MirrorBelow(root, "./" + j) == root + "/" + j
  {
    var ji := Join(init, "/");
    JoinOrdinaryNoLeadingOrTrailingSlash(init);
    var d := "./" + ji;
    EndsWithoutSlash("./", ji);
    Regroup("./", ji, c);
    DirnameBasename(d, c);
    NormRootDir(root, init);
    var t := root + "/" + ji;
    EndsWithoutSlash(root + "/", ji);
    JoinAfter(t, c);
    Regroup(root + "/", ji, c);
    MirrorOf(root, "./" + j, d, c, t);
  }

  lemma MirrorsSingle(root: string, cs: seq<string>)
    requires OrdinaryName(root)
    requires |cs| == 1 && OrdinaryNames(cs)
    ensures MirrorBelow(root, "./" + Join(cs, "/")) == root + "/" + Join(cs, "/")
  {
    assert Join(cs, "/") == cs[0];
    MirrorTopLevel(root, cs[0]);
  }

  /** The names of a list before its last one are ordinary names too. */
  lemma InitOrdinary(cs: seq<string>)
    requires |cs| >= 2 && OrdinaryNames(cs)
    ensures OrdinaryNames(cs[..|cs| - 1]) && OrdinaryName(cs[|cs| - 1])
  {
    var init := cs[..|cs| - 1];
    forall i | 0 <= i < |init| ensures OrdinaryName(init[i]) {
      assert init[i] == cs[i];
    }
  }

  /** A joined list of two or more names is its initial part joined with its last. */
  lemma JoinLast(cs: seq<string>, sep: string)
    requires |cs| >= 2
    ensures Join(cs, sep) == Join(cs[..|cs| - 1], sep) + sep + cs[|cs| - 1]
  {
    assert cs[..|cs| - 1] + [cs[|cs| - 1]] == cs;
    JoinSnoc(cs[..|cs| - 1], cs[|cs| - 1], sep);
  }

  lemma MirrorsNested(root: string, cs: seq<string>)
    requires OrdinaryName(root)
    requires |cs| >= 2 && OrdinaryNames(cs)
    ensures MirrorBelow(root, "./" + Join(cs, "/")) == root + "/" + Join(cs, "/")
  {
    InitOrdinary(cs);
    JoinLast(cs, "/");
    MirrorNested(root, cs[..|cs| - 1], cs[|cs| - 1], Join(cs, "/"));
  }

  /** For a path as the project scanner reports it (`./` then ordinary names), the path
      mirrored below an ordinary root keeps every name, the file name included. */
  lemma Mirrors(root: string, cs: seq<string>)
    requires OrdinaryName(root)
    requires |cs| >= 1 && OrdinaryNames(cs)
    ensures MirrorBelow(root, "./" + Join(cs, "/")) == root + "/" + Join(cs, "/")
  {
    if |cs| == 1 {
      MirrorsSingle(root, cs);
    } else {
      MirrorsNested(root, cs);
    }
  }

  lemma TestsRoot()
    ensures OrdinaryName("tests") && "tests" + "/" == "tests/"
  {
  }

  /** For a path as the project scanner reports it (`./` then ordinary names), the test
      path mirrors it below `tests/`, keeping the file name as it is. */
  lemma TestPathMirrors(cs: seq<string>)
    requires |cs| >= 1 && OrdinaryNames(cs)
    ensures TestPath("./" + Join(cs, "/")) == "tests/" + Join(cs, "/")
  {
    TestsRoot();
    Mirrors("tests", cs);
  }

  /** For a top-level file `./c`, the mirrored file sits directly in the root, which
      is what `root/.` normalises to. */
  lemma MirrorDirTopLevel(root: string, c: string)
    requires OrdinaryName(root) && OrdinaryName(c)
    ensures Dirname(MirrorBelow(root, "./" + c)) == NormPath(PathJoin(root, Dirname("./" + c)))
  {
    DotSlash();
    DirnameBasename(".", c);
    NormRootDot(root);
    MirrorTopLevel(root, c);
    DirnameBasename(root, c);
  }

  lemma MirrorDirNested(root: string, init: seq<string>, c: string, j: string)
    requires OrdinaryName(root)
    requires |init| >= 1 && OrdinaryNames(init) && OrdinaryName(c)
    requires j == Join(init, "/") + "/" + c
    ensures Dirname(MirrorBelow(root, "./" + j)) == NormPath(PathJoin(root, Dirname("./" + j)))
  {
    var ji := Join(init, "/");
    JoinOrdinaryNoLeadingOrTrailingSlash(init);
    var d := "./" + ji;
    EndsWithoutSlash("./", ji);
    Regroup("./", ji, c);
    DirnameBasename(d, c);
    NormRootDir(root, init);
    MirrorNested(root, init, c, j);
    var t := root + "/" + ji;
    EndsWithoutSlash(root + "/", ji);
    Regroup(root + "/", ji, c);
    DirnameBasename(t, c);
  }

  /** For a path as the project scanner reports it, the directory of the mirrored path
      is the normalised join of the root with the path's own directory. */
  lemma MirrorDir(root: string, cs: seq<string>)
    requires OrdinaryName(root)
    requires |cs| >= 1 && OrdinaryNames(cs)
    ensures Dirname(MirrorBelow(root, "./" + Join(cs, "/")))
         == NormPath(PathJoin(root, Dirname("./" + Join(cs, "/"))))
  {
    if |cs| == 1 {
      assert Join(cs, "/") == cs[0];
      MirrorDirTopLevel(root, cs[0]);
    } else {
      InitOrdinary(cs);
      JoinLast(cs, "/");
      MirrorDirNested(root, cs[..|cs| - 1], cs[|cs| - 1], Join(cs, "/"));
    }
  }

  /** For a scanner-reported path, the test file lies in `tests/<dirname(path)>`, once
      that directory is normalised. */
  lemma TestDirMirrors(cs: seq<string>)
    requires |cs| >= 1 && OrdinaryNames(cs)
    ensures Dirname(TestPath("./" + Join(cs, "/"))) == NormPath(PathJoin("tests", Dirname("./" + Join(cs, "/"))))
  {
    TestsRoot();
    MirrorDir("tests", cs);
  }

  /** Distinct scanner-reported source paths get distinct test paths, so no two
      generation jobs write the same file. */
  lemma TestPathsDistinct(cs1: seq<string>, cs2: seq<string>)
    requires |cs1| >= 1 && OrdinaryNames(cs1)
    requires |cs2| >= 1 && OrdinaryNames(cs2)
    requires "./" + Join(cs1, "/") != "./" + Join(cs2, "/")
    ensures TestPath("./" + Join(cs1, "/")) != TestPath("./" + Join(cs2, "/"))
  {
    TestPathMirrors(cs1);
    TestPathMirrors(cs2);
    var j1 := Join(cs1, "/");
    var j2 := Join(cs2, "/");
    assert ("tests/" + j1)[6..] == j1;
    assert ("tests/" + j2)[6..] == j2;
  }
}

=== FILE: strings.dfy ===
/** Text helpers with the meaning of the Python `str` operations the system uses:
    `in` on strings, `split` with a separator, `sep.join`, `strip`, `str(int)`,
    `startswith` and `endswith`. Strings are sequences of characters. */
module Strings {

  datatype Option<+T> = None | Some(value: T)

  /** Python's `str.isspace` for a single character: the ASCII whitespace, the
      information separators 0x1C-0x1F and the Unicode space separators and
      line/paragraph separators. */
  predicate IsSpace(c: char) {
    || c == ' ' || c == '\t' || c == '\n' || c == '\r' || c == '\U{0B}' || c == '\U{0C}'
    || ('\U{1C}' <= c <= '\U{1F}')
    || c == '\U{85}' || c == '\U{A0}' || c == '\U{1680}'
    || ('\U{2000}' <= c <= '\U{200A}')
    || c == '\U{2028}' || c == '\U{2029}' || c == '\U{202F}' || c == '\U{205F}' || c == '\U{3000}'
  }

  predicate StartsWith(s: string, prefix: string) {
    prefix <= s
  }

  predicate EndsWith(s: string, suffix: string) {
    |suffix| <= |s| && s[|s| - |suffix|..] == suffix
  }

  /** `pat` occurs in `s` starting at index `i`. */
  predicate OccursAt(s: string, pat: string, i: int) {
    0 <= i && i + |pat| <= |s| && s[i..i + |pat|] == pat
  }

  /** The first index at or after `k` where `pat` occurs in `s` (Python `s.find(pat, k)`). */
  function IndexFrom(s: string, pat: string, k: nat): (r: Option<nat>)
    requires k <= |s|
    decreases |s| - k
    ensures r.Some? ==> k <= r.value && OccursAt(s, pat, r.value)
    ensures r.Some? ==> forall j :: k <= j < r.value ==> !OccursAt(s, pat, j)
    ensures r.None? ==> forall j :: k <= j ==> !OccursAt(s, pat, j)
  {
    if OccursAt(s, pat, k) then Some(k)
    else if k == |s| then None
    else IndexFrom(s, pat, k + 1)
  }

  /** The first occurrence of `pat` in `s`, if any (Python `s.find(pat)`). */
  function IndexOf(s: string, pat: string): Option<nat> {
    IndexFrom(s, pat, 0)
  }

  /** Python's substring test `pat in s`. */
  predicate Contains(s: string, pat: string) {
    IndexOf(s, pat).Some?
  }

  /** `s.split(sep)[0]`: the text before the first occurrence of `sep`, or all of
      `s` when `sep` does not occur. No occurrence of `sep` in `s`, not even one
      overlapping the end of the result, starts inside the result. */
  function BeforeFirst(s: string, sep: string): (r: string)
    requires |sep| > 0
    ensures r <= s
    ensures !Contains(r, sep)
    ensures Contains(s, sep) ==> OccursAt(s, sep, |r|)
    ensures forall j :: 0 <= j < |r| ==> !OccursAt(s, sep, j)
    ensures !Contains(s, sep) ==> r == s
  {
    match IndexOf(s, sep)
    case Some(i) =>
      var r := s[..i];
      forall j | 0 <= j
        ensures !OccursAt(r, sep, j)
      {
        if OccursAt(r, sep, j) {
          assert s[j..j + |sep|] == r[j..j + |sep|];
          assert OccursAt(s, sep, j);
        }
      }
      r
    case None => s
  }

  /** The first occurrence at or after `k` is at `i` when `pat` occurs at `i` and
      nowhere from `k` up to `i`. */
  lemma {:induction false} FirstOccurrence(s: string, pat: string, k: nat, i: nat)
    requires k <= i && OccursAt(s, pat, i)
    requires forall j :: k <= j < i ==> !OccursAt(s, pat, j)
    decreases i - k
    ensures IndexFrom(s, pat, k) == Some(i)
  {
    if k < i {
      FirstOccurrence(s, pat, k + 1, i);
    }
  }

  /** A substring of a string that does not contain `pat` does not contain it either. */
  lemma {:induction false} NotContainsSlice(s: string, pat: string, a: nat, b: nat)
    requires a <= b <= |s|
    requires !Contains(s, pat)
    ensures !Contains(s[a..b], pat)
  {
    var t := s[a..b];
    if Contains(t, pat) {
      var j := IndexOf(t, pat).value;
      OccursInSlice(s, pat, a, b, j);
    }
  }

  /** An occurrence in a slice is an occurrence in the whole string. */
  lemma OccursInSlice(s: string, pat: string, a: nat, b: nat, j: nat)
    requires a <= b <= |s| && OccursAt(s[a..b], pat, j)
    ensures OccursAt(s, pat, a + j)
  {
    var u := s[a..b][j..j + |pat|];
    var v := s[a + j..a + j + |pat|];
    forall k | 0 <= k < |pat| ensures u[k] == v[k] {
    }
    assert u == v;
  }

  /** Every character of `s` from index `lo` up to `hi` is whitespace. */
  predicate SpaceBetween(s: string, lo: int, hi: int) {
    forall i :: lo <= i < hi && 0 <= i < |s| ==> IsSpace(s[i])
  }

  /** Every character of `w` is whitespace. */
  predicate AllSpace(w: string) {
    SpaceBetween(w, 0, |w|)
  }

  /** Scanning forward from `k` over whitespace: the index of the first non-whitespace
      character at or after `k`, or `|s|`. */
  function SkipSpace(s: string, k: nat): (n: nat)
    requires k <= |s|
    decreases |s| - k
    ensures k <= n <= |s| && SpaceBetween(s, k, n)
    ensures n == |s| || !IsSpace(s[n])
  {
    if k < |s| && IsSpace(s[k]) then SkipSpace(s, k + 1) else k
  }

  /** Scanning backward from `k` over whitespace: the index just after the last
      non-whitespace character before `k`, or 0. */
  function SkipSpaceBack(s: string, k: nat): (n: nat)
    requires k <= |s|
    ensures n <= k && SpaceBetween(s, n, k)
    ensures n == 0 || !IsSpace(s[n - 1])
  {
    if k > 0 && IsSpace(s[k - 1]) then SkipSpaceBack(s, k - 1) else k
  }

  /** Where the text `s.strip()` keeps starts. */
  function StripStart(s: string): nat {
    SkipSpace(s, 0)
  }

  /** A string with no leading and no trailing whitespace. */
  predicate IsStripped(s: string) {
    s == [] || (!IsSpace(s[0]) && !IsSpace(s[|s| - 1]))
  }

  /** Python `s.strip()`: `s` without its leading and its trailing whitespace; a string
      of whitespace only becomes empty. */
  function Strip(s: string): (r: string)
    ensures IsStripped(r)
    ensures var a := StripStart(s); a + |r| <= |s| && r == s[a..a + |r|]
    ensures var a := StripStart(s); SpaceBetween(s, 0, a) && SpaceBetween(s, a + |r|, |s|)
  {
    var a := StripStart(s);
    var e := if a == |s| then a else SkipSpaceBack(s, |s|);
    s[a..e]
  }

  /** Appending whitespace to a stripped string and stripping again gives it back. */
  lemma StripTrailingSpace(p: string, ws: string)
    requires IsStripped(p)
    requires AllSpace(ws)
    ensures Strip(p + ws) == p
  {
    var s := p + ws;
    assert SpaceBetween(s, |p|, |s|) by {
      forall i | |p| <= i < |s| ensures IsSpace(s[i]) {
        assert s[i] == ws[i - |p|];
      }
    }
    if p == [] {
      SkipSpaceAll(s, 0);
    } else {
      assert s[0] == p[0] && s[|p| - 1] == p[|p| - 1];
      SkipSpaceBackTo(s, |p|, |s|);
      assert s[0..|p|] == p;
    }
  }

  lemma {:induction false} SkipSpaceAll(s: string, k: nat)
    requires k <= |s| && SpaceBetween(s, k, |s|)
    decreases |s| - k
    ensures SkipSpace(s, k) == |s|
  {
    if k < |s| {
      SkipSpaceAll(s, k + 1);
    }
  }

  lemma {:induction false} SkipSpaceBackTo(s: string, m: nat, k: nat)
    requires 0 < m <= k <= |s| && !IsSpace(s[m - 1]) && SpaceBetween(s, m, k)
    decreases k
    ensures SkipSpaceBack(s, k) == m
  {
    if k > m {
      SkipSpaceBackTo(s, m, k - 1);
    }
  }

  /** Python `sep.join(parts)`. */
  function Join(parts: seq<string>, sep: string): (r: string)
    ensures |parts| == 0 ==> r == ""
  {
    if |parts| == 0 then ""
    else if |parts| == 1 then parts[0]
    else parts[0] + sep + Join(parts[1..], sep)
  }

  lemma JoinCons(x: string, rest: seq<string>, sep: string)
    requires |rest| >= 1
    ensures Join([x] + rest, sep) == x + sep + Join(rest, sep)
  {
    assert ([x] + rest)[1..] == rest;
  }

  lemma {:induction false} JoinSnoc(parts: seq<string>, x: string, sep: string)
    requires |parts| >= 1
    ensures Join(parts + [x], sep) == Join(parts, sep) + sep + x
  {
    if |parts| == 1 {
      assert parts + [x] == [parts[0], x];
    } else {
      assert (parts + [x])[1..] == parts[1..] + [x];
      JoinSnoc(parts[1..], x, sep);
    }
  }

  /** Python `s.split(c)` for a one-character separator: the maximal pieces of `s`
      between occurrences of `c`, at least one. */
  function Split(s: string, c: char): (r: seq<string>)
    ensures |r| >= 1
  {
    if |s| == 0 then [""]
    else if s[0] == c then [""] + Split(s[1..], c)
    else
      var t := Split(s[1..], c);
      [[s[0]] + t[0]] + t[1..]
  }

  /** Splitting around one separator splits each side independently. */
  lemma {:induction false} SplitAround(a: string, b: string, c: char)
    ensures Split(a + [c] + b, c) == Split(a, c) + Split(b, c)
  {
    if |a| == 0 {
      assert a + [c] + b == [c] + b;
      SplitCons(c, b, c);
    } else {
      var rest := a[1..] + [c] + b;
      assert a + [c] + b == [a[0]] + rest;
      assert a == [a[0]] + a[1..];
      SplitCons(a[0], rest, c);
      SplitCons(a[0], a[1..], c);
      SplitAround(a[1..], b, c);
      var xs := Split(a[1..], c);
      var ys := Split(b, c);
      if a[0] == c {
        ConsAppend("", xs, ys);
      } else {
        HeadAppend(xs, ys);
        ConsAppend([a[0]] + xs[0], xs[1..], ys);
      }
    }
  }

  lemma ConsAppend<T>(h: T, xs: seq<T>, ys: seq<T>)
    ensures [h] + (xs + ys) == [h] + xs + ys
  {
  }

  lemma HeadAppend<T>(xs: seq<T>, ys: seq<T>)
    requires |xs| >= 1
    ensures (xs + ys)[0] == xs[0] && (xs + ys)[1..] == xs[1..] + ys
  {
  }

  /** One step of `split`: a leading separator ends an empty piece, any other leading
      character starts the first piece. */
  lemma SplitCons(x: char, rest: string, c: char)
    ensures Split([x] + rest, c) ==
      if x == c then [""] + Split(rest, c)
      else [[x] + Split(rest, c)[0]] + Split(rest, c)[1..]
  {
    assert ([x] + rest)[0] == x && ([x] + rest)[1..] == rest;
  }

  /** A string without the separator is one piece. */
  lemma {:induction false} SplitNoSeparator(s: string, c: char)
    requires c !in s
    ensures Split(s, c) == [s]
  {
    if |s| > 0 {
      SplitNoSeparator(s[1..], c);
      assert [s[0]] + s[1..] == s;
    }
  }

  /** Joining pieces that do not contain the separator and splitting again gives the pieces back. */
  lemma {:induction false} SplitJoin(parts: seq<string>, c: char)
    requires |parts| >= 1
    requires forall i :: 0 <= i < |parts| ==> c !in parts[i]
    ensures Split(Join(parts, [c]), c) == parts
  {
    if |parts| == 1 {
      SplitNoSeparator(parts[0], c);
    } else {
      SplitJoin(parts[1..], c);
      SplitAround(parts[0], Join(parts[1..], [c]), c);
      SplitNoSeparator(parts[0], c);
      assert [parts[0]] + parts[1..] == parts;
    }
  }

  /** Splitting and joining with the same separator gives the string back. */
  lemma {:induction false} JoinSplit(s: string, c: char)
    ensures Join(Split(s, c), [c]) == s
  {
    if |s| > 0 {
      JoinSplit(s[1..], c);
      var t := Split(s[1..], c);
      if s[0] != c {
        var r := [[s[0]] + t[0]] + t[1..];
        if |t| > 1 {
          assert r[1..] == t[1..];
          assert t == [t[0]] + t[1..];
          assert Join(t, [c]) == t[0] + [c] + Join(t[1..], [c]);
        }
      } else {
        assert Split(s, c) == [""] + t;
        assert ([""] + t)[1..] == t;
      }
    }
  }

  predicate IsDigit(c: char) {
    '0' <= c <= '9'
  }

  function DigitChar(d: nat): (c: char)
    requires d < 10
    ensures IsDigit(c) && c as int - '0' as int == d
  {
    (d + '0' as int) as char
  }

  /** Python `str(n)` for a non-negative integer: its decimal digits. */
  function NatToString(n: nat): (r: string)
    ensures |r| >= 1
    ensures forall i :: 0 <= i < |r| ==> IsDigit(r[i])
    ensures |r| > 1 ==> r[0] != '0'
  {
    if n < 10 then [DigitChar(n)] else NatToString(n / 10) + [DigitChar(n % 10)]
  }

  /** The value of a string of decimal digits (Python `int(s)` on digits). */
  function ParseNat(s: string): nat
    requires forall i :: 0 <= i < |s| ==> IsDigit(s[i])
  {
    if |s| == 0 then 0
    else
      var last := s[|s| - 1];
      assert IsDigit(last);
      ParseNat(s[..|s| - 1]) * 10 + (last as int - '0' as int)
  }

  /** Decimal rendering loses nothing: reading the digits back gives the number. */
  lemma {:induction false} ParseNatToString(n: nat)
    ensures ParseNat(NatToString(n)) == n
  {
    if n >= 10 {
      var s := NatToString(n);
      assert s[..|s| - 1] == NatToString(n / 10);
      ParseNatToString(n / 10);
    }
  }
}

=== FILE: syntax_repair.dfy ===
/** The bounded syntax-repair loop. The Python parser and the language-model repair
    service are parameters: `parse(s)` is `None` when `s` parses and `Some(traceback)`
    when it raises a syntax error, and `repair(candidate, error)` is the `updated_file`
    the service answers for a candidate and the error reported for it. */
module SyntaxRepair {
  import opened Strings

  /** `validate_syntax(source)` of `unit_tests.py` (and `is_valid_syntax` of the
      package): the validity flag and the traceback of a syntax error. */
  function Validate(parse: string -> Option<string>, source: string): (r: (bool, Option<string>))
    ensures r.0 <==> r.1.None?
    ensures r.0 ==> parse(source).None?
    ensures !r.0 ==> parse(source) == r.1
  {
    match parse(source)
    case None => (true, None)
    case Some(tb) => (false, Some(tb))
  }

  /** Reference description of the repair loop with `fuel` requests left: ask for a
      repair of the current candidate and its error, stop at the first answer that
      parses, and otherwise carry on with the answer and its new error. With no
      requests left the current candidate is the answer. */
  function Iterate(parse: string -> Option<string>, repair: (string, string) -> string,
                   candidate: string, err: string, fuel: nat): string
    decreases fuel
  {
    if fuel == 0 then candidate
    else
      var next := repair(candidate, err);
      match parse(next)
      case None => next
      case Some(e) => Iterate(parse, repair, next, e, fuel - 1)
  }

  /** The answer is one that parses, unless every request was spent; and once at least
      one request is allowed, the answer is one of the repair service's answers. */
  lemma {:induction false} IterateOutcome(parse: string -> Option<string>, repair: (string, string) -> string,
                                          candidate: string, err: string, fuel: nat)
    decreases fuel
    ensures fuel == 0 ==> Iterate(parse, repair, candidate, err, fuel) == candidate
    ensures fuel >= 1 && parse(repair(candidate, err)).None? ==>
      Iterate(parse, repair, candidate, err, fuel) == repair(candidate, err)
    ensures fuel >= 1 ==> exists c, e :: Iterate(parse, repair, candidate, err, fuel) == repair(c, e)
  {
    if fuel >= 1 {
      var next := repair(candidate, err);
      if parse(next).Some? && fuel >= 2 {
        IterateOutcome(parse, repair, next, parse(next).value, fuel - 1);
      }
    }
  }

  /** A further request is made only after every earlier answer failed to parse: if the
      answer does not parse, every request was used. */
  lemma {:induction false} IterateInvalidMeansExhausted(parse: string -> Option<string>, repair: (string, string) -> string,
                                                        candidate: string, err: string, fuel: nat)
    requires fuel >= 1
    requires parse(Iterate(parse, repair, candidate, err, fuel)).Some?
    decreases fuel
    ensures forall k :: 1 <= k <= fuel ==> parse(Iterate(parse, repair, candidate, err, k)).Some?
  {
    var next := repair(candidate, err);
    assert parse(next).Some?;
    if fuel >= 2 {
      IterateInvalidMeansExhausted(parse, repair, next, parse(next).value, fuel - 1);
      forall k | 1 <= k <= fuel ensures parse(Iterate(parse, repair, candidate, err, k)).Some? {
        if k >= 2 {
          assert Iterate(parse, repair, candidate, err, k) == Iterate(parse, repair, next, parse(next).value, k - 1);
        }
      }
    }
  }

  /** Request `next` is the answer to request `prev`, which failed to parse with the
      error `next` carries. */
  predicate Follows(parse: string -> Option<string>, repair: (string, string) -> string,
                    prev: (string, string), next: (string, string))
  {
    var answer := repair(prev.0, prev.1);
    next.0 == answer && parse(answer) == Some(next.1)
  }

  /** Every request after the first is about the previous answer and its error. */
  predicate Chained(parse: string -> Option<string>, repair: (string, string) -> string, calls: seq<(string, string)>) {
    forall k :: 1 <= k < |calls| ==> Follows(parse, repair, calls[k - 1], calls[k])
  }

  /** `iterate_syntax(client, source, first_err, max_iter)`. Besides the text it
      returns, `calls` lists the (candidate, error) pair of every repair request in the
      order they were made. */
  method IterateSyntax(parse: string -> Option<string>, repair: (string, string) -> string,
                       source: string, firstErr: string, maxIter: nat)
    returns (result: string, calls: seq<(string, string)>)
    ensures |calls| <= maxIter
    ensures maxIter == 0 ==> result == source && calls == []
    ensures maxIter >= 1 ==> |calls| >= 1 && calls[0] == (source, firstErr)
    ensures |calls| >= 1 ==> result == repair(calls[|calls| - 1].0, calls[|calls| - 1].1)
    ensures Chained(parse, repair, calls)
    ensures |calls| < maxIter ==> parse(result).None?
    ensures result == Iterate(parse, repair, source, firstErr, maxIter)
  {
    result := source;
    calls := [];
    var lastErr := firstErr;
    var i := 0;
    while i < maxIter
      invariant 0 <= i <= maxIter && |calls| == i
      invariant i == 0 ==> result == source && lastErr == firstErr
      invariant i >= 1 ==> calls[0] == (source, firstErr)
      invariant i >= 1 ==> result == repair(calls[i - 1].0, calls[i - 1].1)
      invariant i >= 1 ==> parse(result) == Some(lastErr)
      invariant Chained(parse, repair, calls)
      invariant Iterate(parse, repair, source, firstErr, maxIter) == Iterate(parse, repair, result, lastErr, maxIter - i)
    {
      var prevCalls := calls;
      var candidate := result;
      calls := calls + [(candidate, lastErr)];
      assert forall k :: 0 <= k < i ==> calls[k] == prevCalls[k];
      assert i >= 1 ==> Follows(parse, repair, calls[i - 1], calls[i]);
      result := repair(candidate, lastErr);
      assert Iterate(parse, repair, candidate, lastErr, maxIter - i) ==
        if parse(result).None? then result else Iterate(parse, repair, result, parse(result).value, maxIter - i - 1);
      var err := parse(result);
      if err.None? {
        break;
      }
      lastErr := err.value;
      i := i + 1;
    }
  }

  /** The written test file of `generate_initial`, from the generated `body`: a body
      that parses is written as it is; any other body is written as the repair loop
      (ten requests at most) leaves it, whether or not that parses. */
  method GenerateInitial(parse: string -> Option<string>, repair: (string, string) -> string, body: string)
    returns (written: string, calls: seq<(string, string)>)
    ensures parse(body).None? ==> written == body && calls == []
    ensures parse(body).Some? ==> 1 <= |calls| <= 10 && calls[0] == (body, parse(body).value)
    ensures parse(body).Some? ==> written == Iterate(parse, repair, body, parse(body).value, 10)
    ensures parse(written).Some? ==> |calls| == 10
  {
    var (valid, err) := Validate(parse, body);
    if valid {
      written := body;
      calls := [];
    } else {
      written, calls := IterateSyntax(parse, repair, body, err.value, 10);
    }
  }

  /** `validate_syntax(client, source, max_iter)` of the package with the validity
      check it evidently intends (`is_valid_syntax`): a source that parses is returned
      at once without any request; otherwise the repair loop runs on it and its
      traceback. */
  method ValidateSyntax(parse: string -> Option<string>, repair: (string, string) -> string,
                        source: string, maxIter: nat)
    returns (result: string, calls: seq<(string, string)>)
    ensures parse(source).None? ==> result == source && calls == []
    ensures parse(source).Some? && maxIter >= 1 ==> |calls| >= 1 && calls[0] == (source, parse(source).value)
    ensures |calls| <= maxIter
    ensures |calls| < maxIter ==> parse(result).None?
    ensures parse(source).Some? ==> result == Iterate(parse, repair, source, parse(source).value, maxIter)
  {
    var (valid, err) := Validate(parse, source);
    if valid {
      return source, [];
    }
    result, calls := IterateSyntax(parse, repair, source, err.value, maxIter);
  }

  /** How the package's `validate_syntax` ends as written: with a returned text, or with
      the `TypeError` raised by its call `validate_syntax(updated_source)`, which passes
      the text as the client and omits the required source. */
  datatype Outcome = Returned(text: string) | RaisedTypeError

  /** The package's `validate_syntax` as written, with the number of repair requests it
      makes: the first repaired text is never checked, because checking it raises. */
  function ValidateSyntaxAsWritten(parse: string -> Option<string>, source: string, maxIter: nat): (r: (Outcome, nat))
    ensures r.1 <= 1 && r.1 <= maxIter
    ensures r.0.Returned? ==> r.0.text == source && r.1 == 0
    ensures r.0.RaisedTypeError? ==> r.1 == 1
    ensures r.0.RaisedTypeError? <==> parse(source).Some? && maxIter >= 1
  {
    if parse(source).None? then (Returned(source), 0)
    else if maxIter == 0 then (Returned(source), 0)
    else (RaisedTypeError, 1)
  }

  /** A broken source that one repair would fix: `pass(` does not parse, the service
      answers `pass`, which does. */
  function ExampleParse(s: string): Option<string> {
    if s == "pass" then None else Some("SyntaxError")
  }

  function ExampleRepair(s: string, err: string): string {
    "pass"
  }

  /** As written, the package's `validate_syntax` raises on every source that needs
      repair, even when the first repair succeeds; the intended loop returns the
      repaired text. */
  lemma ValidateSyntaxAsWrittenRaises()
    ensures ValidateSyntaxAsWritten(ExampleParse, "pass(", 10) == (RaisedTypeError, 1)
    ensures Iterate(ExampleParse, ExampleRepair, "pass(", "SyntaxError", 10) == "pass"
    ensures ExampleParse("pass").None?
  {
    assert ExampleParse("pass(") == Some("SyntaxError");
    assert ExampleRepair("pass(", "SyntaxError") == "pass";
  }
}
